=== FILE: README.md ===
# Media archive pages — a Dafny model

The application has a directory of users, a profile per user, and a page per
media category (TV, music, podcasts, books) that lists the archive entries of
that category. This project models the logic of three of its React
components:

- the searchable user directory (`src/components/UsersList_backup.jsx`, whose
  component is `ArchivePage`; no route renders it at present, see
  "## Observations"): the search effect that filters the users by a
  term and ranks them, the state rules of the search box, and the route
  parameter a selected user navigates to;
- the category page (`src/components/CategoryPage.jsx`): the store query key,
  the newest-first sort, the grouping of entries under month headings, the
  heading verb, the background gradient and the rating format;
- the profile page (`src/components/UserProfile.jsx`): the sorting of a user's
  entries into four category buckets, the widget click path and the widget
  style.

Modules:

| module | file | contents |
|---|---|---|
| `Wrappers` | `wrappers.dfy` | `Option` with failure propagation |
| `Text` | `text.dfy` | ASCII lower-casing, JavaScript `trim`, `includes`/`startsWith`, code-point order, decimal numerals, `substr(-2)` |
| `Sorting` | `sorting.dfy` | a stable insertion sort over a total preorder, the order `Array.prototype.sort` promises |
| `Keyed` | `keyed.dfy` | order-preserving selection by key (`filter`) and grouping by key into an insertion-ordered object |
| `UriComponent` | `uri.dfy` | `encodeURIComponent` and `decodeURIComponent` (section 19.2.6 of ECMA-262) with UTF-8 |
| `Calendar` | `calendar.dfy` | year and month of a time value (section 21.4.1 of ECMA-262) |
| `Theme` | `theme.dfy` | the four category gradients and the default gradient |
| `Archive` | `archive.dfy` | an archive entry as the pages read it |
| `UsersList` | `users_list.dfy` | the user directory |
| `CategoryPage` | `category_page.dfy` | the category page |
| `UserProfile` | `user_profile.dfy` | the profile page |

Each component's effects are modelled as pure functions of their inputs. The
store's query results, the time zone (as a function from a time value to the
offset of local time in milliseconds) and the entered text are parameters.

## Model

| member | source | states |
|---|---|---|
| UsersList.CompareUsers | src/components/UsersList_backup.jsx:69-85 | the comparator is negative exactly when `a`'s username starts with the term and `b`'s does not, or both or neither do and `a`'s lower-cased username comes first |
| UsersList.RankOrderIsTotal | src/components/UsersList_backup.jsx:69-85 | the comparator is a consistent total preorder, so sorting by it is well defined |
| UsersList.SortedIsRanked | src/components/UsersList_backup.jsx:74-84 | a list sorted by the comparator puts every username that starts with the term before every other, and each of the two tiers in username order |
| UsersList.Search | src/components/UsersList_backup.jsx:51-90 | a blank term (after trimming) stores every user unchanged; any other term stores exactly the users whose username, full name or non-empty name contains the lower-cased term, each as often as in the store, ranked |
| UsersList.TiesAreSameName | src/components/UsersList_backup.jsx:69-85 | two users compare equal exactly when their lower-cased usernames are equal |
| UsersList.SearchStable | src/components/UsersList_backup.jsx:61-85 | among users with the same lower-cased username the ranked result keeps the store's order |
| UsersList.Refilter | src/components/UsersList_backup.jsx:51-90 | the effect keeps the users and the term, stores the search result, marks a non-blank term as searched, unmarks an empty box, and leaves the flag alone for a whitespace-only term |
| UsersList.ActionsKeepConsistent | src/components/UsersList_backup.jsx:37-104 | the initial state and every state after typing, clearing or loading the users holds the current search result, shows results for a non-blank term and hides them for an empty box |
| UsersList.RefilterIdempotent | src/components/UsersList_backup.jsx:51-90 | running the effect again changes nothing |
| UsersList.ChangeSearch | src/components/UsersList_backup.jsx:93-98 | typing keeps the users, stores the typed value as the term and lists that term's search result |
| UsersList.ClearSearch | src/components/UsersList_backup.jsx:101-104 | clearing keeps the users, empties the term, hides the results and lists every user |
| UsersList.LoadUsers | src/components/UsersList_backup.jsx:37-38 | loading stores the fetched users, keeps the term, lists the term's search result among them, and lists every fetched user while the term is blank |
| UsersList.ClearSearchResets | src/components/UsersList_backup.jsx:101-104 | clearing empties the box, hides the results and restores the full list |
| UsersList.NonBlankSearchShows | src/components/UsersList_backup.jsx:93-98 | typing a term with a non-space character shows the ranked matches of that term |
| UsersList.WhitespaceKeepsFlag | src/components/UsersList_backup.jsx:52-98 | typing only spaces neither shows nor hides the results and resets the list to every user |
| UsersList.RouteParam | src/components/UsersList_backup.jsx:107-113 | a user without a username gets the id; otherwise the parameter decodes back to the username and holds no `/` |
| UsersList.RouteParamInjective | src/components/UsersList_backup.jsx:107-113 | users with different usernames get different parameters |
| UsersList.UserPath | src/components/UsersList_backup.jsx:116-119 | the path starts with `/`, and no further `/` follows whenever the user has a username or a slash-free id |
| UriComponent.Utf8 | src/components/UsersList_backup.jsx:112 | a code point takes one to four bytes by its range, and every byte after the first is a continuation byte |
| UriComponent.EscapeAllAt | src/components/UsersList_backup.jsx:112 | the escapes of a byte sequence hold, at the byte's position, `%` and its two upper-case hexadecimal digits |
| UriComponent.DecodeEscapedChar | src/components/UsersList_backup.jsx:112 | the escapes of a character's UTF-8 bytes decode back to exactly that character, consuming exactly those escapes |
| UriComponent.DecodeEncode | src/components/UsersList_backup.jsx:112 | decoding the encoding of any string gives the string back |
| UriComponent.EncodeIsSafe | src/components/UsersList_backup.jsx:112 | an encoding consists of unreserved characters and `%` only, and so never holds a `/` |
| UriComponent.EncodeIdentityIff | src/components/UsersList_backup.jsx:112 | a string encodes to itself exactly when all its characters are unreserved |
| UriComponent.HexRoundTrip | src/components/UsersList_backup.jsx:112 | each hexadecimal digit reads back as its value |
| CategoryPage.QueryKey | src/components/CategoryPage.jsx:61-64 | the queried key is the lower-cased route name, as long as the name under ASCII lower-casing, and a lower-case name is its own key |
| CategoryPage.QueryKeyCaseInsensitive | src/components/CategoryPage.jsx:63 | route names that differ only in case query the same key, and the key of a key is itself |
| CategoryPage.SortNewestFirst | src/components/CategoryPage.jsx:83-95 | the sorted entries are a permutation of the fetched ones in non-increasing time value |
| CategoryPage.NewestFirstIsTotal | src/components/CategoryPage.jsx:83-95 | comparing time values is a total preorder |
| CategoryPage.TiesAreSameTime | src/components/CategoryPage.jsx:94 | two entries compare equal exactly when their time values are equal |
| CategoryPage.SortNewestFirstStable | src/components/CategoryPage.jsx:83-95 | entries with equal time values keep their fetched order |
| CategoryPage.UndatedSortsAsEpoch | src/components/CategoryPage.jsx:84-93 | an undated entry sorts as time value 0: nothing after it is dated later than the epoch and nothing before it earlier |
| CategoryPage.MonthLabel | src/components/CategoryPage.jsx:39-41 | a month label is six or seven characters: the month's three-letter name, then ` '` and the last two characters of the year's numeral |
| CategoryPage.MonthKey | src/components/CategoryPage.jsx:33-42 | the key is "Unknown Date" exactly when `createdAt` is falsy, and otherwise the label of the entry's local year and month |
| CategoryPage.MonthKeySeparatesMonths | src/components/CategoryPage.jsx:39-41 | dated entries in different months of the year never share a key |
| CategoryPage.YearDigitsSeparate | src/components/CategoryPage.jsx:40 | years of two or more digits that differ modulo 100 end in different two characters |
| CategoryPage.MonthKeySameIff | src/components/CategoryPage.jsx:36-41 | two dated entries share a key exactly when their local months of the year are equal and their local years end in the same two characters |
| CategoryPage.MonthKeySeparatesYears | src/components/CategoryPage.jsx:40-41 | the same month in years of two or more digits that differ modulo 100 (March 2023 and March 2024) gets different keys |
| CategoryPage.SameMonthCenturiesApart | src/components/CategoryPage.jsx:40 | the same month in years equal modulo 100 gets the same key |
| CategoryPage.GroupByMonth | src/components/CategoryPage.jsx:29-52 | the buckets have distinct keys in order of first occurrence, each holds exactly the entries with its key in input order and is non-empty, and together they hold every entry once |
| CategoryPage.ExactlyOneBucket | src/components/CategoryPage.jsx:44-48 | every entry is in one bucket, and that is the bucket of its own key |
| CategoryPage.UnknownDateBucket | src/components/CategoryPage.jsx:33-35 | the "Unknown Date" bucket holds exactly the undated entries |
| CategoryPage.Buckets | src/components/CategoryPage.jsx:83-129 | the page's buckets group the newest-first entries by month key and together hold every fetched entry once |
| CategoryPage.BucketsNewestFirst | src/components/CategoryPage.jsx:83-95 | within every bucket of the sorted entries the entries are newest first |
| CategoryPage.HeadingVerb | src/components/CategoryPage.jsx:187-195 | the route names "music", "books", "tv" and "podcasts", case and all, get "Listened in", "Read in", "Watched in" and "Heard in"; the heading says "Added in" exactly when the name is none of the four |
| CategoryPage.CategoryGradient | src/components/CategoryPage.jsx:13-26 | the background is the dark default exactly when the lower-cased name is not one of the four keys, and otherwise that key's gradient |
| CategoryPage.GradientFollowsQuery | src/components/CategoryPage.jsx:13-26 | the background is the gradient of the key the page queries |
| CategoryPage.HeadingIsCaseSensitive | src/components/CategoryPage.jsx:187-195 | the route name "Music" queries and paints the music entries but heads them "Added in" |
| CategoryPage.DisplayTitle | src/components/CategoryPage.jsx:249 | the shown title is the entry's title when that is non-empty, and "Untitled Entry" when it is missing or empty |
| CategoryPage.DisplayCreator | src/components/CategoryPage.jsx:260 | the shown creator is the entry's creator when that is non-empty, and "Unknown Creator" when it is missing or empty |
| CategoryPage.FormatRating | src/components/CategoryPage.jsx:132-135 | a missing rating shows as "0.0" |
| CategoryPage.TenthsRoundTrip | src/components/CategoryPage.jsx:141 | a one-decimal numeral, with or without a minus sign, reads back as its number of tenths |
| CategoryPage.FormatRatingValue | src/components/CategoryPage.jsx:141 | a rating shows as its magnitude rounded half up to whole tenths, with the rating's sign |
| CategoryPage.FormatRatingNearest | src/components/CategoryPage.jsx:141 | a rating shows as a multiple of a tenth at most half a tenth away from it |
| Calendar.YearSpan | src/components/CategoryPage.jsx:40 | consecutive years start 365 or 366 days apart, by the leap-year rule |
| Calendar.YearOfDay | src/components/CategoryPage.jsx:40 | the year of a day starts on or before it and the next year after it |
| Calendar.YearOfDayUnique | src/components/CategoryPage.jsx:40 | that is the only year with this property |
| Calendar.MonthOfYearDayUnique | src/components/CategoryPage.jsx:39 | the month of a day of the year is the only month whose span holds it |
| Calendar.YearMonthOfDay | src/components/CategoryPage.jsx:39-40 | the year and month of a day bracket the day |
| Calendar.MonthAbbreviationsDistinct | src/components/CategoryPage.jsx:39 | the month names have three letters and are pairwise different |
| Calendar.EpochIsJanuary | src/components/CategoryPage.jsx:36-40 | time value 0 is in January 1970 |
| Calendar.DayBeforeEpochIsDecember | src/components/CategoryPage.jsx:36-40 | time value -1 is in December 1969: days round down for negative time values |
| Text.BlankIffAllSpace | src/components/UsersList_backup.jsx:52 | a term trims to the empty string exactly when every character of it is whitespace |
| Text.ContainsIff | src/components/UsersList_backup.jsx:63-65 | the left-to-right scan of `includes` finds the part exactly when it occurs at some position |
| Text.Compare | src/components/UsersList_backup.jsx:84 | the code-point comparison answers -1, 0 or 1 |
| Text.CompareIsLexicographic | src/components/UsersList_backup.jsx:84 | the comparison is negative exactly when the first string is a proper prefix of the second, or has the smaller code point where they first differ |
| Text.CompareAntisymmetric | src/components/UsersList_backup.jsx:84 | swapping the strings negates the answer, and the answer is 0 exactly for equal strings |
| Text.LexLeTotalOrder | src/components/UsersList_backup.jsx:84 | the code-point order is reflexive, total, antisymmetric and transitive |
| Text.LastTwoDigits | src/components/CategoryPage.jsx:40 | a year of two or more digits keeps its tens and units digits, which depend only on the year modulo 100 |
| Keyed.WithKeySelects | src/components/UserProfile.jsx:69-82 | filtering by a key keeps exactly the elements with that key, each as often as in the input, in input order |
| Keyed.GroupByIsGrouping | src/components/CategoryPage.jsx:29-52 | pushing each element onto the array of its key in an insertion-ordered object yields distinct keys in order of first occurrence, each array the elements with that key in input order, every element covered |
| Keyed.GroupByKeepsEverything | src/components/CategoryPage.jsx:29-52 | the arrays together hold every element exactly once |
| Sorting.Sort | src/components/CategoryPage.jsx:83-95 | sorting yields a permutation of the input |
| Sorting.SortSorted | src/components/CategoryPage.jsx:83-95 | the sorted sequence is ordered by the comparator whenever that is a total preorder |
| Sorting.SortStable | src/components/CategoryPage.jsx:83-95 | sorting keeps the input order of elements the comparator calls equal |
| Theme.NamedGradient | src/components/UserProfile.jsx:107-134 | exactly the four category keys have a gradient, and none of them is the default |
| Theme.NamedGradientInjective | src/components/CategoryPage.jsx:13-26 | no two categories share a gradient |
| UserProfile.Categorize | src/components/UserProfile.jsx:69-82 | each of the four buckets holds exactly the entries whose lower-cased category is its key, in fetched order and with their multiplicity |
| UserProfile.BucketsDisjoint | src/components/UserProfile.jsx:69-82 | no entry is in two buckets |
| UserProfile.CategorizeIgnoresCase | src/components/UserProfile.jsx:70-81 | categories that differ only in case go to the same bucket |
| UserProfile.UnclassifiedInNoBucket | src/components/UserProfile.jsx:69-82 | an entry without a category, or with any other category, is in no bucket |
| UserProfile.SingularCategoriesUnclassified | src/components/UserProfile.jsx:76-81 | the singular categories "podcast" and "Book" match no bucket |
| UserProfile.CategorizeCounts | src/components/UserProfile.jsx:69-82 | the four buckets and the unclassified entries together account for every fetched entry once |
| UserProfile.CategoryPath | src/components/UserProfile.jsx:102-104 | a widget navigates to `/category/` followed by its lower-cased title |
| UserProfile.ProfileStyle | src/components/UserProfile.jsx:107-134 | a widget gets its category's gradient exactly when its lower-cased title is a category key, and otherwise only the supplied background colour |
| UserProfile.StylesAgreeAcrossPages | src/components/UserProfile.jsx:107-134 | a widget and the category page paint a category in the same gradient; other titles get the dark default on the category page |
| UserProfile.Widgets | src/components/UserProfile.jsx:276-290 | the profile shows four widgets, titled TV, Music, Podcasts and Books, each holding exactly the bucket of its category key |
| UserProfile.WidgetsLinkToTheirCategory | src/components/UserProfile.jsx:276-290 | each of the four widgets holds the bucket of its lower-cased title, has a gradient and links to the category page that queries its bucket's key, paints the same gradient and uses the category's own heading verb |

## Left out

- Store access: reading `users_v3` and `archives_v3` and the loading, empty and
  error statuses. Query results are parameters. The model does not check that
  the store's `where` filter agrees with the key.
- Rendering: markup, inline styles other than the gradient choice, the pulse
  animation, placeholder images, the body style effect and its cleanup, and the
  second, unused search box markup in `UsersList_backup.jsx`.
- React scheduling. The search effect is modelled as running after every
  change of the term or the users, in one step with the handler. Intermediate
  renders between the handler's `setState` calls and the effect are not
  modelled. `UsersList.RefilterIdempotent` shows that running the effect again
  changes nothing.
- CategoryPage.QueryKey: the key has the route name's length only because
  lower-casing is ASCII here. JavaScript's `toLowerCase` can lengthen a string
  (U+0130 becomes two code points), so the length clause is not promised for
  other names.
- Text.Lower: lower-cases ASCII letters only. Full Unicode case mapping
  (`toLowerCase`) is a locale-independent table not modelled here.
- UsersList.CompareUsers: compares usernames by code point instead of
  `localeCompare`, whose collation depends on the locale.
- Calendar.MonthAbbreviations: English short month names stand for
  `toLocaleString("default", { month: "short" })`, whose output depends on the
  locale.
- Time zone: the offset of local time is a parameter. Time zone databases are
  not modelled, and neither is the limit of ±8.64e15 ms on `Date` values.
- `createdAt` as a string: `new Date(string)` parsing is not modelled. A stored
  date is either a store timestamp or a number of milliseconds.
- CategoryPage.FormatRating: ratings are exact reals. Binary floating point and
  its rounding of decimal ties in `toFixed` are not modelled. Neither is
  `parseFloat` of a rating stored as a string, or `NaN` and infinities.
  Magnitudes of 1e21 or more, which `toFixed` prints in exponent form, are
  not modelled either.
- UsersList.UserPath: promises only that no `/` follows the leading one. An
  id is used unencoded, so an id holding `?` or `#` makes the rest of the
  path a query or a fragment; URL parsing is not modelled.
- UriComponent.Decode: models the decoder only as far as the round trip needs.
  It rejects malformed escapes, stray or missing continuation bytes, overlong
  forms, surrogates and values above U+10FFFF. JavaScript's lone surrogate code
  units cannot occur, because a Dafny `char` is a Unicode scalar value.
- `App.jsx` routes, `UsersList.jsx`, `UserArchives.jsx`, `Contact.jsx`, the
  store configuration and the styling configuration are not part of this model.
- UserProfile: fetching the user's document and resolving the user id are not
  modelled; the entries are a parameter.

## Observations

These differences between the code and what a reader of the page would expect
(undated entries last, one bucket per calendar month, one heading per
category, every stored category shown on the profile) were found while
stating the contracts. The model follows the code in each case.

- Undated entries sort as the epoch (`new Date(0)`), not last.
  `CategoryPage.UndatedSortsAsEpoch` states where they land: after every entry
  dated after 1970 but before any entry dated before 1970. The "Unknown Date"
  bucket therefore comes last whenever no entry predates 1970. A pre-1970
  entry is listed after the undated ones, so its month heading follows
  "Unknown Date" unless a later entry already opened that month.
- The month key keeps only two digits of the year. March 1924 and March 2024
  share the bucket "Mar '24" (`CategoryPage.SameMonthCenturiesApart`).
- The heading verb compares the route name case-sensitively, while the query
  and the gradient lower-case it (`CategoryPage.HeadingIsCaseSensitive`).
  Every link the profile produces is lower-case, so only a hand-typed URL
  shows the mismatch (`UserProfile.WidgetsLinkToTheirCategory`).
- The profile's buckets match the plural keys "podcasts" and "books". An entry
  stored with the singular category "podcast" or "book" appears in no widget
  (`UserProfile.SingularCategoriesUnclassified`).
- `createdAt` equal to the number 0 is falsy. Such an entry is filed under
  "Unknown Date" although its date is 1 January 1970 (`CategoryPage.MonthKey`).
- A search term of spaces only leaves the results shown or hidden as they were,
  but the list becomes every user (`UsersList.WhitespaceKeepsFlag`).

The following concern code outside this model and are recorded for
completeness:

- No file imports `ArchivePage`, the component of `UsersList_backup.jsx`
  (lines 6 and 627). The route "/" renders `UsersList.jsx` instead
  (`src/App.jsx:3` and `:11`). That component has no search box and links to
  `/${user.id}` (`UsersList.jsx:53`).
- The category page reads only `categoryName` from the route
  (`CategoryPage.jsx:8`). Its query filters `archives_v3` by category alone
  (`CategoryPage.jsx:61-64`), so `/alice/music` lists every user's music
  entries, not only Alice's.

- `src/App.jsx:12` names the profile's route parameter `username`, but
  `UserProfile.jsx:15` reads `userId`. The guard at `UserProfile.jsx:92`
  therefore never starts the fetch, and the profile stays on "Loading...".
- When a user has no entries (`UserProfile.jsx:52-55`), the handler empties
  `entries` but not `categorizedEntries`. After a switch from another profile,
  the widgets would keep the previous user's buckets.
- The widgets navigate to `/category/<title>` (`UserProfile.jsx:103`). Under
  the routes of `src/App.jsx:13` that path reaches the category page with the
  username "category".

=== FILE: archive.dfy ===
/** An archive entry as the pages read it from the `archives_v3` store. */
module Archive {
  import opened Wrappers

  /** A stored `createdAt`: a store `Timestamp` (an object, so always truthy,
      read through `toDate()`), or a plain number of milliseconds passed to
      `new Date(...)`. Both carry the time value in milliseconds. */
  datatype When = StoreTimestamp(millis: int) | EpochMillis(millis: int)

  datatype Entry = Entry(
    id: string,
    category: Option<string>,
    title: Option<string>,
    creator: Option<string>,
    rating: Option<real>,
    createdAt: Option<When>)

  /** `if (entry.createdAt)`: present, and not the falsy number 0. */
  predicate IsDated(e: Entry) {
    match e.createdAt
    case None => false
    case Some(StoreTimestamp(_)) => true
    case Some(EpochMillis(ms)) => ms != 0
  }

  /** The time value of a dated entry. */
  function DateOf(e: Entry): int
    requires IsDated(e)
  {
    e.createdAt.value.millis
  }
}

=== FILE: calendar.dfy ===
/** The proleptic Gregorian calendar on a time value, as ECMA-262 defines
    it for `Date` (section 21.4.1 of ECMA-262): a time value counts
    milliseconds from 1970-01-01T00:00Z, a day is 86,400,000 ms, and the
    year of a day is the latest year starting on or before it. The offset of
    local time from UTC is a parameter of the callers. */
module Calendar {

  const MsPerDay: int := 86400000

  predicate IsLeapYear(y: int) {
    y % 4 == 0 && (y % 100 != 0 || y % 400 == 0)
  }

  function YearLength(y: int): int {
    if IsLeapYear(y) then 366 else 365
  }

  /** The day number of the first day of year `y` (`DayFromYear`); Dafny's
      division by a positive constant is the floor the standard uses. */
  function DayFromYear(y: int): int {
    365 * (y - 1970) + (y - 1969) / 4 - (y - 1901) / 100 + (y - 1601) / 400
  }

  /** `Day(t)`: the day number of a time value, rounding toward minus
      infinity for times before 1970. */
  function DayOf(t: int): int {
    t / MsPerDay
  }

  lemma StepDiv(a: int, n: int)
    requires n == 4 || n == 100 || n == 400
    ensures (a + 1) / n - a / n == if (a + 1) % n == 0 then 1 else 0
  {
    if n == 4 {
      assert a == (a / 4) * 4 + a % 4;
    } else if n == 100 {
      assert a == (a / 100) * 100 + a % 100;
    } else {
      assert a == (a / 400) * 400 + a % 400;
    }
  }

  /** Consecutive years start a year's length apart. */
  lemma YearSpan(y: int)
    ensures DayFromYear(y + 1) - DayFromYear(y) == YearLength(y)
  {
    StepDiv(y - 1969, 4);
    StepDiv(y - 1901, 100);
    StepDiv(y - 1601, 400);
    assert (y - 1968) % 4 == 0 <==> y % 4 == 0;
    assert (y - 1900) % 100 == 0 <==> y % 100 == 0;
    assert (y - 1600) % 400 == 0 <==> y % 400 == 0;
  }

  lemma {:induction false} DayFromYearMonotone(a: int, b: int)
    requires a < b
    ensures DayFromYear(a) + 365 <= DayFromYear(b)
    decreases b - a
  {
    YearSpan(a);
    if a + 1 < b {
      DayFromYearMonotone(a + 1, b);
    }
  }

  function YearUp(y: int, d: int): (r: int)
    requires DayFromYear(y) <= d
    ensures DayFromYear(r) <= d < DayFromYear(r + 1)
    decreases d - DayFromYear(y)
  {
    YearSpan(y);
    if DayFromYear(y + 1) <= d then YearUp(y + 1, d) else y
  }

  function YearDown(y: int, d: int): (r: int)
    ensures DayFromYear(r) <= d < DayFromYear(r + 1)
    decreases if DayFromYear(y) > d then DayFromYear(y) - d else 0
  {
    if DayFromYear(y) <= d then YearUp(y, d)
    else
      YearSpan(y - 1);
      YearDown(y - 1, d)
  }

  /** The year containing day `d`. */
  function YearOfDay(d: int): (y: int)
    ensures DayFromYear(y) <= d < DayFromYear(y + 1)
  {
    YearDown(1970, d)
  }

  /** An earlier year ends no later than a later year starts. */
  lemma YearsApart(a: int, b: int)
    requires a < b
    ensures DayFromYear(a + 1) <= DayFromYear(b)
  {
    if a + 1 < b {
      DayFromYearMonotone(a + 1, b);
    }
  }

  /** The year containing a day is the only year whose span holds it, so it
      is the latest year that starts on or before the day. */
  lemma YearOfDayUnique(d: int, y: int)
    requires DayFromYear(y) <= d < DayFromYear(y + 1)
    ensures y == YearOfDay(d)
  {
    var z := YearOfDay(d);
    if y < z {
      YearsApart(y, z);
    } else if z < y {
      YearsApart(z, y);
    }
  }

  // ---------------------------------------------------------------------
  // Months

  /** The day of the year on which month `m` (0 for January) starts; month
      12 stands for the start of the next year. */
  function MonthStart(m: int, leap: bool): int
    requires 0 <= m <= 12
  {
    var days := [0, 31, 59, 90, 120, 151, 181, 212, 243, 273, 304, 334, 365];
    days[m] + if leap && m >= 2 then 1 else 0
  }

  function MonthFrom(m: int, doy: int, leap: bool): (r: int)
    requires 0 <= m < 12
    requires 0 <= doy < MonthStart(m + 1, leap)
    ensures 0 <= r <= m
    ensures MonthStart(r, leap) <= doy < MonthStart(r + 1, leap)
  {
    if MonthStart(m, leap) <= doy then m else MonthFrom(m - 1, doy, leap)
  }

  /** The month (0 to 11) of a day of the year. */
  function MonthOfYearDay(doy: int, leap: bool): (m: int)
    requires 0 <= doy < if leap then 366 else 365
    ensures 0 <= m < 12
    ensures MonthStart(m, leap) <= doy < MonthStart(m + 1, leap)
  {
    MonthFrom(11, doy, leap)
  }

  /** Each month starts at least 28 days after the one before. */
  lemma MonthStep(m: int, leap: bool)
    requires 0 <= m < 12
    ensures MonthStart(m, leap) + 28 <= MonthStart(m + 1, leap)
  {
  }

  lemma {:induction false} MonthStartMonotone(i: int, j: int, leap: bool)
    requires 0 <= i <= j <= 12
    ensures MonthStart(i, leap) <= MonthStart(j, leap)
    decreases j - i
  {
    if i < j {
      MonthStep(i, leap);
      MonthStartMonotone(i + 1, j, leap);
    }
  }

  /** The month of a day of the year is the only month whose span holds
      it. */
  lemma MonthOfYearDayUnique(doy: int, leap: bool, m: int)
    requires 0 <= m < 12
    requires MonthStart(m, leap) <= doy < MonthStart(m + 1, leap)
    ensures MonthStart(12, leap) == if leap then 366 else 365
    ensures m == MonthOfYearDay(doy, leap)
  {
    MonthStartMonotone(0, m, leap);
    MonthStartMonotone(m + 1, 12, leap);
    var r := MonthOfYearDay(doy, leap);
    if r < m {
      MonthStartMonotone(r + 1, m, leap);
    } else if m < r {
      MonthStartMonotone(m + 1, r, leap);
    }
  }

  /** The short English month names, as `toLocaleString` gives them with
      `{ month: "short" }` in an English locale. */
  const MonthAbbreviations: seq<string> :=
    ["Jan", "Feb", "Mar", "Apr", "May", "Jun", "Jul", "Aug", "Sep", "Oct", "Nov", "Dec"]

  /** Each name has three letters and no two months share one. */
  lemma MonthAbbreviationsDistinct()
    ensures forall m :: 0 <= m < 12 ==> |MonthAbbreviations[m]| == 3
    ensures forall i, j :: 0 <= i < j < 12 ==> MonthAbbreviations[i] != MonthAbbreviations[j]
  {
  }

  /** A day within a year's span is one of that year's days. */
  lemma DayOfYearInRange(d: int, y: int)
    requires DayFromYear(y) <= d < DayFromYear(y + 1)
    ensures 0 <= d - DayFromYear(y) < if IsLeapYear(y) then 366 else 365
  {
    YearSpan(y);
  }

  datatype YearMonth = YearMonth(year: int, month: int)

  /** The calendar year and month (0 to 11) of a day number. */
  function YearMonthOfDay(d: int): (r: YearMonth)
    ensures 0 <= r.month < 12
    ensures DayFromYear(r.year) <= d < DayFromYear(r.year + 1)
    ensures MonthStart(r.month, IsLeapYear(r.year)) <= d - DayFromYear(r.year) < MonthStart(r.month + 1, IsLeapYear(r.year))
  {
    var y := YearOfDay(d);
    var doy := d - DayFromYear(y);
    DayOfYearInRange(d, y);
    var m := MonthOfYearDay(doy, IsLeapYear(y));
    YearMonth(y, m)
  }

  /** The calendar year and month (0 to 11) of a local time value. */
  function YearMonthOf(local: int): YearMonth {
    YearMonthOfDay(DayOf(local))
  }

  /** The epoch itself is in January 1970. */
  lemma EpochIsJanuary()
    ensures YearMonthOf(0) == YearMonth(1970, 0)
  {
    assert DayOf(0) == 0;
    assert DayFromYear(1970) == 0 && DayFromYear(1971) == 365;
    YearOfDayUnique(0, 1970);
    MonthOfYearDayUnique(0, false, 0);
  }

  /** The millisecond before the epoch is in December 1969: the day of a
      negative time value rounds down, not toward zero. */
  lemma DayBeforeEpochIsDecember()
    ensures YearMonthOf(-1) == YearMonth(1969, 11)
  {
    assert DayOf(-1) == -1;
    assert DayFromYear(1969) == -365 && DayFromYear(1970) == 0;
    YearOfDayUnique(-1, 1969);
    MonthOfYearDayUnique(364, false, 11);
  }
}

=== FILE: category_page.dfy ===
/** The category page (`src/components/CategoryPage.jsx`): the entries of
    one category, newest first, under one heading per month. */
module CategoryPage {
  import opened Wrappers
  import opened Text
  import Sorting
  import Keyed
  import Calendar
  import Theme
  import opened Archive

  // ---------------------------------------------------------------------
  // Store query

  /** The value the page queries the `category` field for. Whatever case
      the route uses, the key is lower case, and a lower-case name is its
      own key. */
  function QueryKey(categoryName: string): (k: string)
    ensures |k| == |categoryName| && IsLower(k)
    ensures IsLower(categoryName) ==> k == categoryName
  {
    LowerFacts(categoryName);
    Lower(categoryName)
  }

  /** Route names that differ only in case query the same entries, and the
      key of a key is itself. */
  lemma QueryKeyCaseInsensitive(a: string, b: string)
    requires Lower(a) == Lower(b)
    ensures QueryKey(a) == QueryKey(b)
    ensures QueryKey(QueryKey(a)) == QueryKey(a)
  {
    LowerFacts(a);
  }

  // ---------------------------------------------------------------------
  // Newest first

  /** The time value the sort compares: that of the entry's date, or
      `new Date(0)` when `createdAt` is falsy. */
  function SortMillis(e: Entry): int {
    if IsDated(e) then DateOf(e) else 0
  }

  /** `(a, b) => dateB - dateA`, as the relation "`a` may stay before `b`". */
  const NewestFirst: (Entry, Entry) -> bool := (a: Entry, b: Entry) => SortMillis(b) <= SortMillis(a)

  lemma NewestFirstIsTotal()
    ensures Sorting.TotalPreorder(NewestFirst)
  {
  }

  /** The fetched entries in non-increasing date order; nothing is added,
      dropped or duplicated. */
  function SortNewestFirst(entries: seq<Entry>): (r: seq<Entry>)
    ensures multiset(r) == multiset(entries)
    ensures forall i, j :: 0 <= i < j < |r| ==> SortMillis(r[i]) >= SortMillis(r[j])
  {
    NewestFirstIsTotal();
    Sorting.SortSorted(entries, NewestFirst);
    Sorting.Sort(entries, NewestFirst)
  }

  lemma {:induction false} TiesAreSameTime(s: seq<Entry>, y: Entry)
    ensures Sorting.Ties(s, NewestFirst, y) == Keyed.WithKey(s, SortMillis, SortMillis(y))
  {
    if |s| > 0 {
      TiesAreSameTime(s[1..], y);
    }
  }

  /** Entries with the same time value keep their fetched order. */
  lemma SortNewestFirstStable(entries: seq<Entry>, millis: int)
    ensures Keyed.WithKey(SortNewestFirst(entries), SortMillis, millis) == Keyed.WithKey(entries, SortMillis, millis)
  {
    var y := Entry("", None, None, None, None, Some(StoreTimestamp(millis)));
    assert SortMillis(y) == millis;
    NewestFirstIsTotal();
    Sorting.SortStable(entries, NewestFirst, y);
    TiesAreSameTime(entries, y);
    TiesAreSameTime(SortNewestFirst(entries), y);
  }

  /** An undated entry counts as the epoch: no entry dated after 1970 comes
      after it, and no entry dated before 1970 comes before it. */
  lemma UndatedSortsAsEpoch(entries: seq<Entry>, i: int, j: int)
    requires 0 <= i < j < |SortNewestFirst(entries)|
    ensures !IsDated(SortNewestFirst(entries)[i]) ==> SortMillis(SortNewestFirst(entries)[j]) <= 0
    ensures !IsDated(SortNewestFirst(entries)[j]) ==> SortMillis(SortNewestFirst(entries)[i]) >= 0
  {
  }

  // ---------------------------------------------------------------------
  // Month buckets

  const UnknownDate: string := "Unknown Date"

  /** The last two characters of the year's decimal numeral
      (`getFullYear().toString().substr(-2)`). */
  function YearDigits(year: int): (s: string)
    ensures 1 <= |s| <= 2
  {
    LastTwo(IntToString(year))
  }

  /** `${month} '${year}` for a local year and month. */
  function MonthLabel(ym: Calendar.YearMonth): (s: string)
    requires 0 <= ym.month < 12
    ensures 6 <= |s| <= 7
    ensures s[..3] == Calendar.MonthAbbreviations[ym.month]
    ensures s[3..] == " '" + YearDigits(ym.year)
  {
    Calendar.MonthAbbreviationsDistinct();
    var name := Calendar.MonthAbbreviations[ym.month];
    var year := " '" + YearDigits(ym.year);
    var s := name + year;
    assert s[..3] == name && s[3..] == year;
    s
  }

  /** The local year and month of a dated entry. */
  function LocalYearMonth(e: Entry, zone: int -> int): (ym: Calendar.YearMonth)
    requires IsDated(e)
    ensures 0 <= ym.month < 12
  {
    var t := DateOf(e);
    Calendar.YearMonthOf(t + zone(t))
  }

  /** The bucket of an entry: "Unknown Date" when `createdAt` is falsy,
      otherwise the short month name and the last two characters of the
      year, read in local time (`zone` gives the offset of local time from
      UTC in milliseconds at each instant). */
  function MonthKey(e: Entry, zone: int -> int): (k: string)
    ensures k == UnknownDate <==> !IsDated(e)
    ensures IsDated(e) ==> k == MonthLabel(LocalYearMonth(e, zone))
  {
    if !IsDated(e) then UnknownDate else MonthLabel(LocalYearMonth(e, zone))
  }

  function MonthKeyIn(zone: int -> int): Entry -> string {
    e => MonthKey(e, zone)
  }

  /** Entries of different months never share a bucket. */
  lemma MonthKeySeparatesMonths(a: Entry, b: Entry, zone: int -> int)
    requires IsDated(a) && IsDated(b)
    requires LocalYearMonth(a, zone).month != LocalYearMonth(b, zone).month
    ensures MonthKey(a, zone) != MonthKey(b, zone)
  {
    Calendar.MonthAbbreviationsDistinct();
    var ma := LocalYearMonth(a, zone).month;
    var mb := LocalYearMonth(b, zone).month;
    assert Calendar.MonthAbbreviations[ma] != Calendar.MonthAbbreviations[mb];
  }

  /** Years of two or more digits that differ modulo 100 keep different
      last two digits. */
  lemma YearDigitsSeparate(a: int, b: int)
    requires a >= 10 && b >= 10
    requires a % 100 != b % 100
    ensures YearDigits(a) != YearDigits(b)
  {
    var ta, ua := a / 10 % 10, a % 10;
    var tb, ub := b / 10 % 10, b % 10;
    TensAndUnits(a);
    TensAndUnits(b);
    assert YearDigits(a) == [DigitChar(ta), DigitChar(ua)] by { LastTwoDigits(a); }
    assert YearDigits(b) == [DigitChar(tb), DigitChar(ub)] by { LastTwoDigits(b); }
    if ta != tb {
      assert DigitChar(ta) != DigitChar(tb);
    } else {
      assert DigitChar(ua) != DigitChar(ub);
    }
  }

  /** Two dated entries share a bucket exactly when they fall in the same
      month of the year and their years end in the same two characters. */
  lemma MonthKeySameIff(a: Entry, b: Entry, zone: int -> int)
    requires IsDated(a) && IsDated(b)
    ensures MonthKey(a, zone) == MonthKey(b, zone) <==>
      && LocalYearMonth(a, zone).month == LocalYearMonth(b, zone).month
      && YearDigits(LocalYearMonth(a, zone).year) == YearDigits(LocalYearMonth(b, zone).year)
  {
    Calendar.MonthAbbreviationsDistinct();
    var ya := LocalYearMonth(a, zone);
    var yb := LocalYearMonth(b, zone);
    var ka := MonthKey(a, zone);
    var kb := MonthKey(b, zone);
    assert ka == kb <==> ka[..3] == kb[..3] && ka[3..] == kb[3..] by {
      assert ka == ka[..3] + ka[3..];
      assert kb == kb[..3] + kb[3..];
    }
    var da := YearDigits(ya.year);
    var db := YearDigits(yb.year);
    assert " '" + da == " '" + db <==> da == db by {
      assert (" '" + da)[2..] == da;
      assert (" '" + db)[2..] == db;
    }
  }

  /** The same month in years that differ modulo 100 (March 2023 and March
      2024, say) goes to different buckets. */
  lemma MonthKeySeparatesYears(a: Entry, b: Entry, zone: int -> int)
    requires IsDated(a) && IsDated(b)
    requires LocalYearMonth(a, zone).year >= 10 && LocalYearMonth(b, zone).year >= 10
    requires LocalYearMonth(a, zone).year % 100 != LocalYearMonth(b, zone).year % 100
    ensures MonthKey(a, zone) != MonthKey(b, zone)
  {
    YearDigitsSeparate(LocalYearMonth(a, zone).year, LocalYearMonth(b, zone).year);
    MonthKeySameIff(a, b, zone);
  }

  /** Only the last two digits of the year reach the key, so the same month
      a hundred years apart shares a bucket: March 1924 and March 2024 both
      go under "Mar '24". */
  lemma SameMonthCenturiesApart(a: Entry, b: Entry, zone: int -> int)
    requires IsDated(a) && IsDated(b)
    requires LocalYearMonth(a, zone).month == LocalYearMonth(b, zone).month
    requires LocalYearMonth(a, zone).year >= 10 && LocalYearMonth(b, zone).year >= 10
    requires LocalYearMonth(a, zone).year % 100 == LocalYearMonth(b, zone).year % 100
    ensures MonthKey(a, zone) == MonthKey(b, zone)
  {
    LastTwoDigits(LocalYearMonth(a, zone).year);
    LastTwoDigits(LocalYearMonth(b, zone).year);
  }

  /** `groupEntriesByMonth`: one bucket per month key, keys in order of
      first occurrence, each bucket the entries with its key in list order;
      every entry lands in a bucket and the sizes add up to the input. */
  function GroupByMonth(entries: seq<Entry>, zone: int -> int): (r: seq<Keyed.Group<string, Entry>>)
    ensures Keyed.IsGrouping(r, entries, MonthKeyIn(zone))
    ensures Keyed.TotalSize(r) == |entries|
    ensures multiset(Keyed.Flatten(r)) == multiset(entries)
  {
    Keyed.GroupByIsGrouping(entries, MonthKeyIn(zone));
    Keyed.GroupByKeepsEverything(entries, MonthKeyIn(zone));
    Keyed.GroupBy(entries, MonthKeyIn(zone))
  }

  /** Every entry is in exactly one bucket, the one of its own key. */
  lemma ExactlyOneBucket(entries: seq<Entry>, zone: int -> int, e: Entry)
    requires e in entries
    ensures var r := GroupByMonth(entries, zone);
      && (exists i :: 0 <= i < |r| && e in r[i].items)
      && (forall i :: 0 <= i < |r| && e in r[i].items ==> r[i].key == MonthKey(e, zone))
  {
    var r := GroupByMonth(entries, zone);
    var p :| 0 <= p < |entries| && entries[p] == e;
    assert Keyed.HasGroup(r, MonthKeyIn(zone)(entries[p]));
    var i :| 0 <= i < |r| && r[i].key == MonthKey(e, zone);
    forall j | 0 <= j < |r| ensures e in r[j].items <==> r[j].key == MonthKey(e, zone) {
      Keyed.WithKeySelects(entries, MonthKeyIn(zone), r[j].key);
    }
  }

  /** The "Unknown Date" bucket holds exactly the undated entries. */
  lemma UnknownDateBucket(entries: seq<Entry>, zone: int -> int, i: int)
    requires 0 <= i < |GroupByMonth(entries, zone)|
    requires GroupByMonth(entries, zone)[i].key == UnknownDate
    ensures forall e :: e in GroupByMonth(entries, zone)[i].items <==> e in entries && !IsDated(e)
  {
    Keyed.WithKeySelects(entries, MonthKeyIn(zone), UnknownDate);
  }

  /** What the page lists: the sorted entries grouped by month. The buckets
      group the newest-first order and together hold every fetched entry
      exactly once. */
  function Buckets(entries: seq<Entry>, zone: int -> int): (r: seq<Keyed.Group<string, Entry>>)
    ensures Keyed.IsGrouping(r, SortNewestFirst(entries), MonthKeyIn(zone))
    ensures multiset(Keyed.Flatten(r)) == multiset(entries)
  {
    GroupByMonth(SortNewestFirst(entries), zone)
  }

  /** Within every bucket the entries are newest first. */
  lemma BucketsNewestFirst(entries: seq<Entry>, zone: int -> int, i: int)
    requires 0 <= i < |Buckets(entries, zone)|
    ensures var items := Buckets(entries, zone)[i].items;
      forall a, b :: 0 <= a < b < |items| ==> SortMillis(items[a]) >= SortMillis(items[b])
  {
    var sorted := SortNewestFirst(entries);
    var r := Buckets(entries, zone);
    assert Sorting.SortedBy(sorted, NewestFirst);
    Keyed.WithKeySorted(sorted, MonthKeyIn(zone), r[i].key, NewestFirst);
    var items := r[i].items;
    forall a, b | 0 <= a < b < |items| ensures SortMillis(items[a]) >= SortMillis(items[b]) {
      assert NewestFirst(items[a], items[b]);
    }
  }

  // ---------------------------------------------------------------------
  // Headings and styling

  /** The verb each category's month headings use. */
  const CategoryVerbs: map<string, string> :=
    map["music" := "Listened in", "books" := "Read in", "tv" := "Watched in", "podcasts" := "Heard in"]

  /** The verb of a month heading. The comparison is on the route name as
      given, case and all. */
  function HeadingVerb(categoryName: string): (v: string)
    ensures categoryName in CategoryVerbs ==> v == CategoryVerbs[categoryName]
    ensures v == "Added in" <==> categoryName !in Theme.CategoryKeys
  {
    if categoryName == "music" then "Listened in"
    else if categoryName == "books" then "Read in"
    else if categoryName == "tv" then "Watched in"
    else if categoryName == "podcasts" then "Heard in"
    else "Added in"
  }

  /** `getGradientStyle(categoryName)`: the category's gradient, whatever
      the case of the name, or the dark default. */
  function CategoryGradient(categoryName: string): (g: string)
    ensures g == Theme.DefaultGradient <==> Lower(categoryName) !in Theme.CategoryKeys
    ensures g != Theme.DefaultGradient ==> Theme.NamedGradient(Lower(categoryName)) == Some(g)
  {
    Theme.NamedGradient(Lower(categoryName)).GetOr(Theme.DefaultGradient)
  }

  /** The background follows the category that is queried. */
  lemma GradientFollowsQuery(categoryName: string)
    ensures CategoryGradient(categoryName) == CategoryGradient(QueryKey(categoryName))
  {
    LowerFacts(categoryName);
  }

  /** The heading alone is case-sensitive: a route name "Music" queries the
      music entries on the music gradient, under "Added in" headings. */
  lemma HeadingIsCaseSensitive()
    ensures QueryKey("Music") == "music"
    ensures CategoryGradient("Music") == Theme.MusicGradient
    ensures HeadingVerb("Music") == "Added in"
    ensures HeadingVerb(QueryKey("Music")) == "Listened in"
  {
    assert Lower("Music") == "music";
  }

  // ---------------------------------------------------------------------
  // Entry rows

  /** `entry.title || "Untitled Entry"` */
  function DisplayTitle(e: Entry): (s: string)
    ensures s != ""
    ensures e.title.Some? && e.title.value != "" ==> s == e.title.value
    ensures !(e.title.Some? && e.title.value != "") ==> s == "Untitled Entry"
  {
    if e.title.Some? && e.title.value != "" then e.title.value else "Untitled Entry"
  }

  /** `entry.creator || "Unknown Creator"` */
  function DisplayCreator(e: Entry): (s: string)
    ensures s != ""
    ensures e.creator.Some? && e.creator.value != "" ==> s == e.creator.value
    ensures !(e.creator.Some? && e.creator.value != "") ==> s == "Unknown Creator"
  {
    if e.creator.Some? && e.creator.value != "" then e.creator.value else "Unknown Creator"
  }

  /** `n / 10` written with one decimal: the whole tenths, a point, and
      the last digit. */
  function Tenths(n: nat): (s: string)
    ensures |s| >= 3 && s[0] != '-'
  {
    NatToString(n / 10) + "." + [DigitChar(n % 10)]
  }

  /** `x.toFixed(1)` on the exact value of `x`: a minus sign for a negative
      number, then the nearest multiple of a tenth (the larger on a tie)
      with one decimal. */
  function Fixed1(x: real): string {
    var a := if x < 0.0 then -x else x;
    var n := (a * 10.0 + 0.5).Floor;
    if x < 0.0 then "-" + Tenths(n) else Tenths(n)
  }

  /** `formatRating`: "0.0" for a missing rating, otherwise `toFixed(1)`. */
  function FormatRating(rating: Option<real>): (s: string)
    ensures rating.None? ==> s == "0.0"
  {
    match rating
    case None => "0.0"
    case Some(x) => Fixed1(x)
  }

  /** The value of a numeral `d...d.d` with an optional minus sign, if `s`
      is one. */
  function TenthsValue(s: string): Option<real> {
    var neg := |s| > 0 && s[0] == '-';
    var body := if neg then s[1..] else s;
    if |body| >= 3 && body[|body| - 2] == '.' && IsDigit(body[|body| - 1])
       && (forall i :: 0 <= i < |body| - 2 ==> IsDigit(body[i]))
    then
      var v := ParseNat(body[..|body| - 2]) as real + DigitValue(body[|body| - 1]) as real / 10.0;
      Some(if neg then -v else v)
    else None
  }

  lemma TenthsRoundTrip(n: nat)
    ensures TenthsValue(Tenths(n)) == Some(n as real / 10.0)
    ensures TenthsValue("-" + Tenths(n)) == Some(-(n as real / 10.0))
  {
    var whole := NatToString(n / 10);
    var s := Tenths(n);
    NatToStringRoundTrip(n / 10);
    assert s[..|s| - 2] == whole;
    assert s[|s| - 1] == DigitChar(n % 10);
    assert forall i :: 0 <= i < |s| - 2 ==> IsDigit(s[i]);
    assert ("-" + s)[1..] == s;
    assert n == n / 10 * 10 + n % 10;
  }

  /** Rounding half up to whole tenths moves a non-negative value by at
      most half a tenth. */
  lemma RoundToTenths(a: real)
    requires a >= 0.0
    ensures (a * 10.0 + 0.5).Floor >= 0
    ensures -0.05 <= (a * 10.0 + 0.5).Floor as real / 10.0 - a <= 0.05
  {
    var n := (a * 10.0 + 0.5).Floor;
    assert n as real <= a * 10.0 + 0.5 < n as real + 1.0;
  }

  /** A whole number of tenths is a whole number once multiplied by ten. */
  lemma WholeTenths(k: int)
    ensures (k as real / 10.0 * 10.0).Floor == k
  {
    assert k as real / 10.0 * 10.0 == k as real;
  }

  /** A non-negative rating reads back as its value rounded half up to
      whole tenths. */
  lemma NonNegativeRatingValue(x: real)
    requires x >= 0.0
    ensures var n := (x * 10.0 + 0.5).Floor;
      n >= 0 && TenthsValue(FormatRating(Some(x))) == Some(n as real / 10.0)
  {
    RoundToTenths(x);
    var n: nat := (x * 10.0 + 0.5).Floor;
    TenthsRoundTrip(n);
    assert FormatRating(Some(x)) == Tenths(n);
  }

  /** A negative rating reads back as minus its magnitude rounded half up
      to whole tenths. */
  lemma NegativeRatingValue(x: real)
    requires x < 0.0
    ensures var n := (-x * 10.0 + 0.5).Floor;
      n >= 0 && TenthsValue(FormatRating(Some(x))) == Some((-n) as real / 10.0)
  {
    RoundToTenths(-x);
    var n: nat := (-x * 10.0 + 0.5).Floor;
    TenthsRoundTrip(n);
    assert FormatRating(Some(x)) == "-" + Tenths(n);
    var m: int := n;
    assert -(m as real / 10.0) == (-m) as real / 10.0;
  }

  /** The value a rating's numeral reads back as: the rating's magnitude
      rounded half up to whole tenths, with the rating's sign. */
  lemma FormatRatingValue(x: real)
    ensures var n := ((if x < 0.0 then -x else x) * 10.0 + 0.5).Floor;
      n >= 0 && TenthsValue(FormatRating(Some(x))) == Some((if x < 0.0 then -n else n) as real / 10.0)
  {
    if x < 0.0 {
      NegativeRatingValue(x);
    } else {
      NonNegativeRatingValue(x);
    }
  }

  /** A rating shows as a numeral with one decimal that reads back as a
      multiple of a tenth at most half a tenth from the rating. */
  lemma FormatRatingNearest(x: real)
    ensures TenthsValue(FormatRating(Some(x))).Some?
    ensures var v := TenthsValue(FormatRating(Some(x))).value;
      -0.05 <= v - x <= 0.05 && (v * 10.0).Floor as real == v * 10.0
  {
    var a := if x < 0.0 then -x else x;
    RoundToTenths(a);
    FormatRatingValue(x);
    var n := (a * 10.0 + 0.5).Floor;
    var k := if x < 0.0 then -n else n;
    WholeTenths(k);
    var v := k as real / 10.0;
    assert TenthsValue(FormatRating(Some(x))).value == v;
  }
}

=== FILE: keyed.dfy ===
/** Selecting and grouping records by a key: `Array.prototype.filter` with an
    equality test on a derived key, and the "object of arrays" grouping idiom
    (`grouped[k] ||= []; grouped[k].push(x)`) whose `Object.keys` order is the
    order in which keys were first inserted. */
module Keyed {
  import Sorting

  /** The elements of `s` whose key is `k`, in their order in `s`. */
  function WithKey<K(==), T>(s: seq<T>, keyOf: T -> K, k: K): seq<T> {
    if |s| == 0 then []
    else if keyOf(s[0]) == k then [s[0]] + WithKey(s[1..], keyOf, k)
    else WithKey(s[1..], keyOf, k)
  }

  /** `a` is `b` with some elements left out and the rest in order. */
  predicate IsSubsequence<T(==)>(a: seq<T>, b: seq<T>)
    decreases |b|
  {
    |a| == 0 || (|b| > 0 && (if a[0] == b[0] then IsSubsequence(a[1..], b[1..]) else IsSubsequence(a, b[1..])))
  }

  /** Selecting by key keeps exactly the elements with that key, each as often
      as it occurs in the input, and keeps them in input order. */
  lemma {:induction false} WithKeySelects<K, T>(s: seq<T>, keyOf: T -> K, k: K)
    ensures forall x :: multiset(WithKey(s, keyOf, k))[x] == if keyOf(x) == k then multiset(s)[x] else 0
    ensures forall x :: x in WithKey(s, keyOf, k) <==> x in s && keyOf(x) == k
    ensures IsSubsequence(WithKey(s, keyOf, k), s)
  {
    var r := WithKey(s, keyOf, k);
    if |s| > 0 {
      WithKeySelects(s[1..], keyOf, k);
      assert s == [s[0]] + s[1..];
      forall x ensures x in r <==> x in s && keyOf(x) == k {
        assert x in r <==> x in multiset(r);
        assert x in s <==> x in multiset(s);
      }
      if keyOf(s[0]) == k {
        assert r[0] == s[0] && r[1..] == WithKey(s[1..], keyOf, k);
      }
    }
  }

  lemma {:induction false} WithKeyConcat<K, T>(a: seq<T>, b: seq<T>, keyOf: T -> K, k: K)
    ensures WithKey(a + b, keyOf, k) == WithKey(a, keyOf, k) + WithKey(b, keyOf, k)
  {
    if |a| > 0 {
      assert (a + b)[1..] == a[1..] + b;
      WithKeyConcat(a[1..], b, keyOf, k);
    } else {
      assert a + b == b;
    }
  }

  /** A lower bound (under `le`) of every element of `s` bounds every selected element. */
  lemma {:induction false} WithKeyBoundedBelow<K, T>(s: seq<T>, keyOf: T -> K, k: K, le: (T, T) -> bool, a: T)
    requires forall m :: 0 <= m < |s| ==> le(a, s[m])
    ensures forall m :: 0 <= m < |WithKey(s, keyOf, k)| ==> le(a, WithKey(s, keyOf, k)[m])
  {
    if |s| > 0 {
      WithKeyBoundedBelow(s[1..], keyOf, k, le, a);
      var tail := WithKey(s[1..], keyOf, k);
      if keyOf(s[0]) == k {
        var r := [s[0]] + tail;
        assert forall m :: 1 <= m < |r| ==> r[m] == tail[m - 1];
      }
    }
  }

  /** Selecting from a sorted sequence gives a sorted sequence. */
  lemma {:induction false} WithKeySorted<K, T>(s: seq<T>, keyOf: T -> K, k: K, le: (T, T) -> bool)
    requires Sorting.SortedBy(s, le)
    ensures Sorting.SortedBy(WithKey(s, keyOf, k), le)
  {
    if |s| > 0 {
      WithKeySorted(s[1..], keyOf, k, le);
      var tail := WithKey(s[1..], keyOf, k);
      if keyOf(s[0]) == k {
        WithKeyBoundedBelow(s[1..], keyOf, k, le, s[0]);
        var r := [s[0]] + tail;
        forall i, j | 0 <= i < j < |r| ensures le(r[i], r[j]) {
          assert r[j] == tail[j - 1];
          if i > 0 {
            assert r[i] == tail[i - 1];
          }
        }
      }
    }
  }

  /** The position of the first element with key `k`, or `|s|` if none has it. */
  function FirstIndex<K(==), T>(s: seq<T>, keyOf: T -> K, k: K): (i: nat)
    ensures i <= |s|
    ensures i < |s| <==> exists j :: 0 <= j < |s| && keyOf(s[j]) == k
  {
    if |s| == 0 then 0
    else if keyOf(s[0]) == k then 0
    else
      var i := 1 + FirstIndex(s[1..], keyOf, k);
      assert forall j :: 0 < j < |s| ==> s[j] == s[1..][j - 1];
      i
  }

  // ---------------------------------------------------------------------
  // Grouping

  datatype Group<K, T> = Group(key: K, items: seq<T>)

  /** `grouped[k] ||= []; grouped[k].push(x)` on an insertion-ordered object
      represented as its list of (key, array) entries. */
  function Push<K(==), T>(gs: seq<Group<K, T>>, k: K, x: T): seq<Group<K, T>> {
    if |gs| == 0 then [Group(k, [x])]
    else if gs[0].key == k then [Group(k, gs[0].items + [x])] + gs[1..]
    else [gs[0]] + Push(gs[1..], k, x)
  }

  /** What the grouping loop builds: every element of `s` pushed, front to
      back, onto the group of its key. */
  function GroupBy<K(==), T>(s: seq<T>, keyOf: T -> K): seq<Group<K, T>> {
    if |s| == 0 then []
    else Push(GroupBy(s[..|s| - 1], keyOf), keyOf(s[|s| - 1]), s[|s| - 1])
  }

  function TotalSize<K, T>(gs: seq<Group<K, T>>): nat {
    if |gs| == 0 then 0 else |gs[0].items| + TotalSize(gs[1..])
  }

  /** The concatenation of the groups' items, in group order. */
  function Flatten<K, T>(gs: seq<Group<K, T>>): seq<T> {
    if |gs| == 0 then [] else gs[0].items + Flatten(gs[1..])
  }

  predicate DistinctKeys<K(==), T>(r: seq<Group<K, T>>) {
    forall i, j :: 0 <= i < j < |r| ==> r[i].key != r[j].key
  }

  ghost predicate GroupsSelect<K, T>(r: seq<Group<K, T>>, s: seq<T>, keyOf: T -> K) {
    forall i :: 0 <= i < |r| ==> r[i].items == WithKey(s, keyOf, r[i].key) && r[i].items != []
  }

  /** Some group has key `k`. */
  predicate HasGroup<K(==), T>(r: seq<Group<K, T>>, k: K) {
    exists i :: 0 <= i < |r| && r[i].key == k
  }

  ghost predicate Covers<K, T>(r: seq<Group<K, T>>, s: seq<T>, keyOf: T -> K) {
    forall p :: 0 <= p < |s| ==> HasGroup(r, keyOf(s[p]))
  }

  ghost predicate FirstSeenOrder<K, T>(r: seq<Group<K, T>>, s: seq<T>, keyOf: T -> K) {
    forall i, j :: 0 <= i < j < |r| ==> FirstIndex(s, keyOf, r[i].key) < FirstIndex(s, keyOf, r[j].key)
  }

  /** `r` groups `s` by `keyOf`: the keys are distinct and listed in order of
      first occurrence in `s`, every element of `s` has the group of its key,
      and each group holds exactly the elements with its key, in input order. */
  ghost predicate IsGrouping<K, T>(r: seq<Group<K, T>>, s: seq<T>, keyOf: T -> K) {
    DistinctKeys(r) && GroupsSelect(r, s, keyOf) && Covers(r, s, keyOf) && FirstSeenOrder(r, s, keyOf)
  }

  lemma {:induction false} PushExisting<K, T>(gs: seq<Group<K, T>>, k: K, x: T, i: int)
    requires 0 <= i < |gs| && gs[i].key == k
    requires forall j :: 0 <= j < i ==> gs[j].key != k
    ensures Push(gs, k, x) == gs[i := Group(k, gs[i].items + [x])]
  {
    if i > 0 {
      PushExisting(gs[1..], k, x, i - 1);
    }
  }

  lemma {:induction false} PushNew<K, T>(gs: seq<Group<K, T>>, k: K, x: T)
    requires forall j :: 0 <= j < |gs| ==> gs[j].key != k
    ensures Push(gs, k, x) == gs + [Group(k, [x])]
  {
    if |gs| > 0 {
      PushNew(gs[1..], k, x);
    }
  }

  lemma {:induction false} WithKeySnoc<K, T>(s: seq<T>, x: T, keyOf: T -> K, k: K)
    ensures keyOf(x) == k ==> WithKey(s + [x], keyOf, k) == WithKey(s, keyOf, k) + [x]
    ensures keyOf(x) != k ==> WithKey(s + [x], keyOf, k) == WithKey(s, keyOf, k)
  {
    WithKeyConcat(s, [x], keyOf, k);
    assert [x][1..] == [];
  }

  lemma {:induction false} FirstIndexSnoc<K, T>(s: seq<T>, x: T, keyOf: T -> K, k: K)
    ensures FirstIndex(s, keyOf, k) < |s| ==> FirstIndex(s + [x], keyOf, k) == FirstIndex(s, keyOf, k)
    ensures FirstIndex(s, keyOf, k) == |s| && keyOf(x) == k ==> FirstIndex(s + [x], keyOf, k) == |s|
  {
    if |s| > 0 {
      assert (s + [x])[1..] == s[1..] + [x];
      FirstIndexSnoc(s[1..], x, keyOf, k);
    }
  }

  lemma {:induction false} WithKeyEmpty<K, T>(s: seq<T>, keyOf: T -> K, k: K)
    ensures WithKey(s, keyOf, k) == [] <==> FirstIndex(s, keyOf, k) == |s|
  {
    if |s| > 0 {
      WithKeyEmpty(s[1..], keyOf, k);
    }
  }

  /** The facts about the old groups that survive appending `x` to `s`. */
  lemma OldGroupsAfterSnoc<K, T>(r: seq<Group<K, T>>, s: seq<T>, keyOf: T -> K, x: T, j: int)
    requires GroupsSelect(r, s, keyOf)
    requires 0 <= j < |r|
    ensures FirstIndex(s + [x], keyOf, r[j].key) == FirstIndex(s, keyOf, r[j].key) < |s|
  {
    WithKeyEmpty(s, keyOf, r[j].key);
    FirstIndexSnoc(s, x, keyOf, r[j].key);
  }

  /** Appending `x` to the items of the group of its key. */
  function Extend<K, T>(r: seq<Group<K, T>>, i: int, x: T): seq<Group<K, T>>
    requires 0 <= i < |r|
  {
    r[i := Group(r[i].key, r[i].items + [x])]
  }

  lemma ExtendSelects<K, T>(r: seq<Group<K, T>>, s: seq<T>, keyOf: T -> K, x: T, i: int)
    requires DistinctKeys(r) && GroupsSelect(r, s, keyOf)
    requires 0 <= i < |r| && r[i].key == keyOf(x)
    ensures GroupsSelect(Extend(r, i, x), s + [x], keyOf)
  {
    var r' := Extend(r, i, x);
    forall j | 0 <= j < |r'| ensures r'[j].items == WithKey(s + [x], keyOf, r'[j].key) && r'[j].items != [] {
      WithKeySnoc(s, x, keyOf, r[j].key);
    }
  }

  lemma ExtendCovers<K, T>(r: seq<Group<K, T>>, s: seq<T>, keyOf: T -> K, x: T, i: int)
    requires Covers(r, s, keyOf)
    requires 0 <= i < |r| && r[i].key == keyOf(x)
    ensures Covers(Extend(r, i, x), s + [x], keyOf)
  {
    var r' := Extend(r, i, x);
    var s' := s + [x];
    forall p | 0 <= p < |s'| ensures HasGroup(r', keyOf(s'[p])) {
      if p < |s| {
        assert s'[p] == s[p];
        assert HasGroup(r, keyOf(s[p]));
        var j :| 0 <= j < |r| && r[j].key == keyOf(s[p]);
        assert r'[j].key == r[j].key;
      } else {
        assert r'[i].key == keyOf(x);
      }
    }
  }

  lemma ExtendOrder<K, T>(r: seq<Group<K, T>>, s: seq<T>, keyOf: T -> K, x: T, i: int)
    requires GroupsSelect(r, s, keyOf) && FirstSeenOrder(r, s, keyOf)
    requires 0 <= i < |r|
    ensures FirstSeenOrder(Extend(r, i, x), s + [x], keyOf)
  {
    var r' := Extend(r, i, x);
    forall a, b | 0 <= a < b < |r'| ensures FirstIndex(s + [x], keyOf, r'[a].key) < FirstIndex(s + [x], keyOf, r'[b].key) {
      OldGroupsAfterSnoc(r, s, keyOf, x, a);
      OldGroupsAfterSnoc(r, s, keyOf, x, b);
    }
  }

  /** Pushing onto a key that already has a group keeps the invariant. */
  lemma PushExistingKeepsGrouping<K, T>(r: seq<Group<K, T>>, s: seq<T>, keyOf: T -> K, x: T, i: int)
    requires IsGrouping(r, s, keyOf)
    requires 0 <= i < |r| && r[i].key == keyOf(x)
    ensures IsGrouping(Push(r, keyOf(x), x), s + [x], keyOf)
  {
    PushExisting(r, keyOf(x), x, i);
    assert Push(r, keyOf(x), x) == Extend(r, i, x);
    ExtendSelects(r, s, keyOf, x, i);
    ExtendCovers(r, s, keyOf, x, i);
    ExtendOrder(r, s, keyOf, x, i);
    assert DistinctKeys(Extend(r, i, x));
  }

  /** A key no group has does not occur in a covered sequence. */
  lemma AbsentKey<K, T>(r: seq<Group<K, T>>, s: seq<T>, keyOf: T -> K, k: K)
    requires Covers(r, s, keyOf)
    requires forall j :: 0 <= j < |r| ==> r[j].key != k
    ensures FirstIndex(s, keyOf, k) == |s|
    ensures WithKey(s, keyOf, k) == []
  {
    forall p | 0 <= p < |s| ensures keyOf(s[p]) != k {
      assert HasGroup(r, keyOf(s[p]));
      var j :| 0 <= j < |r| && r[j].key == keyOf(s[p]);
    }
    WithKeyEmpty(s, keyOf, k);
  }

  lemma NewGroupSelects<K, T>(r: seq<Group<K, T>>, s: seq<T>, keyOf: T -> K, x: T)
    requires GroupsSelect(r, s, keyOf)
    requires WithKey(s, keyOf, keyOf(x)) == []
    requires forall j :: 0 <= j < |r| ==> r[j].key != keyOf(x)
    ensures GroupsSelect(r + [Group(keyOf(x), [x])], s + [x], keyOf)
  {
    var r' := r + [Group(keyOf(x), [x])];
    forall j | 0 <= j < |r'| ensures r'[j].items == WithKey(s + [x], keyOf, r'[j].key) && r'[j].items != [] {
      WithKeySnoc(s, x, keyOf, r'[j].key);
      if j < |r| {
        assert r'[j] == r[j];
      } else {
        assert [] + [x] == [x];
      }
    }
  }

  lemma NewGroupCovers<K, T>(r: seq<Group<K, T>>, s: seq<T>, keyOf: T -> K, x: T)
    requires Covers(r, s, keyOf)
    ensures Covers(r + [Group(keyOf(x), [x])], s + [x], keyOf)
  {
    var r' := r + [Group(keyOf(x), [x])];
    var s' := s + [x];
    forall p | 0 <= p < |s'| ensures HasGroup(r', keyOf(s'[p])) {
      if p < |s| {
        assert s'[p] == s[p];
        var j :| 0 <= j < |r| && r[j].key == keyOf(s[p]);
        assert r'[j].key == r[j].key;
      } else {
        assert s'[p] == x && r'[|r|].key == keyOf(x);
      }
    }
  }

  lemma NewGroupOrder<K, T>(r: seq<Group<K, T>>, s: seq<T>, keyOf: T -> K, x: T)
    requires GroupsSelect(r, s, keyOf) && FirstSeenOrder(r, s, keyOf)
    requires FirstIndex(s, keyOf, keyOf(x)) == |s|
    ensures FirstSeenOrder(r + [Group(keyOf(x), [x])], s + [x], keyOf)
  {
    var r' := r + [Group(keyOf(x), [x])];
    var s' := s + [x];
    FirstIndexSnoc(s, x, keyOf, keyOf(x));
    forall a, b | 0 <= a < b < |r'| ensures FirstIndex(s', keyOf, r'[a].key) < FirstIndex(s', keyOf, r'[b].key) {
      OldGroupsAfterSnoc(r, s, keyOf, x, a);
      assert r'[a] == r[a];
      if b < |r| {
        OldGroupsAfterSnoc(r, s, keyOf, x, b);
        assert r'[b] == r[b];
      }
    }
  }

  /** Pushing onto a key with no group yet opens a group at the end. */
  lemma PushNewKeepsGrouping<K, T>(r: seq<Group<K, T>>, s: seq<T>, keyOf: T -> K, x: T)
    requires IsGrouping(r, s, keyOf)
    requires forall j :: 0 <= j < |r| ==> r[j].key != keyOf(x)
    ensures IsGrouping(Push(r, keyOf(x), x), s + [x], keyOf)
  {
    PushNew(r, keyOf(x), x);
    AbsentKey(r, s, keyOf, keyOf(x));
    NewGroupSelects(r, s, keyOf, x);
    NewGroupCovers(r, s, keyOf, x);
    NewGroupOrder(r, s, keyOf, x);
  }

  /** One step of the loop keeps the grouping invariant. */
  lemma PushKeepsGrouping<K, T>(r: seq<Group<K, T>>, s: seq<T>, keyOf: T -> K, x: T)
    requires IsGrouping(r, s, keyOf)
    ensures IsGrouping(Push(r, keyOf(x), x), s + [x], keyOf)
  {
    if i :| 0 <= i < |r| && r[i].key == keyOf(x) {
      PushExistingKeepsGrouping(r, s, keyOf, x, i);
    } else {
      PushNewKeepsGrouping(r, s, keyOf, x);
    }
  }

  /** The grouping loop builds a grouping of its input. */
  lemma {:induction false} GroupByIsGrouping<K, T>(s: seq<T>, keyOf: T -> K)
    ensures IsGrouping(GroupBy(s, keyOf), s, keyOf)
  {
    if |s| > 0 {
      var p := s[..|s| - 1];
      GroupByIsGrouping(p, keyOf);
      PushKeepsGrouping(GroupBy(p, keyOf), p, keyOf, s[|s| - 1]);
      assert p + [s[|s| - 1]] == s;
    }
  }

  lemma {:induction false} FlattenPush<K, T>(gs: seq<Group<K, T>>, k: K, x: T)
    ensures multiset(Flatten(Push(gs, k, x))) == multiset(Flatten(gs)) + multiset{x}
    ensures TotalSize(Push(gs, k, x)) == TotalSize(gs) + 1
  {
    if |gs| > 0 && gs[0].key != k {
      FlattenPush(gs[1..], k, x);
    } else if |gs| > 0 {
      var g := [Group(k, gs[0].items + [x])] + gs[1..];
      assert g[1..] == gs[1..];
    }
  }

  lemma GroupByStep<K, T>(s: seq<T>, keyOf: T -> K)
    requires |s| > 0
    ensures multiset(Flatten(GroupBy(s, keyOf))) == multiset(Flatten(GroupBy(s[..|s| - 1], keyOf))) + multiset{s[|s| - 1]}
    ensures TotalSize(GroupBy(s, keyOf)) == TotalSize(GroupBy(s[..|s| - 1], keyOf)) + 1
  {
    FlattenPush(GroupBy(s[..|s| - 1], keyOf), keyOf(s[|s| - 1]), s[|s| - 1]);
  }

  lemma SnocMultiset<T>(s: seq<T>)
    requires |s| > 0
    ensures multiset(s) == multiset(s[..|s| - 1]) + multiset{s[|s| - 1]}
  {
    assert s == s[..|s| - 1] + [s[|s| - 1]];
  }

  /** Grouping loses and invents nothing: laid end to end the groups are a
      permutation of the input, and the group sizes add up to its length. */
  lemma {:induction false} GroupByKeepsEverything<K, T>(s: seq<T>, keyOf: T -> K)
    ensures multiset(Flatten(GroupBy(s, keyOf))) == multiset(s)
    ensures TotalSize(GroupBy(s, keyOf)) == |s|
  {
    if |s| > 0 {
      GroupByKeepsEverything(s[..|s| - 1], keyOf);
      GroupByStep(s, keyOf);
      SnocMultiset(s);
    }
  }
}

=== FILE: sorting.dfy ===
/** `Array.prototype.sort` with a comparator, as the components use it. Since
    ECMAScript 2019 the sort is stable, so its result is fully determined: the
    elements in comparator order, with elements the comparator calls equal
    kept in their input order. A comparator `cmp` is represented here by the
    relation `le(a, b)`, meaning `cmp(a, b) <= 0`; the sort is an insertion
    sort that puts each element before the first later one it is `le` to. */
module Sorting {

  /** `le` is total and transitive: a comparator that is consistent. */
  ghost predicate TotalPreorder<T(!new)>(le: (T, T) -> bool) {
    && (forall a, b :: le(a, b) || le(b, a))
    && (forall a, b, c :: le(a, b) && le(b, c) ==> le(a, c))
  }

  ghost predicate SortedBy<T>(s: seq<T>, le: (T, T) -> bool) {
    forall i, j :: 0 <= i < j < |s| ==> le(s[i], s[j])
  }

  /** The elements of `s` that `le` cannot tell apart from `x`, in order. */
  function Ties<T>(s: seq<T>, le: (T, T) -> bool, x: T): seq<T> {
    if |s| == 0 then []
    else if le(x, s[0]) && le(s[0], x) then [s[0]] + Ties(s[1..], le, x)
    else Ties(s[1..], le, x)
  }

  function Insert<T>(x: T, s: seq<T>, le: (T, T) -> bool): (r: seq<T>)
    ensures multiset(r) == multiset(s) + multiset{x}
  {
    if |s| == 0 then [x]
    else if le(x, s[0]) then [x] + s
    else
      assert s == [s[0]] + s[1..];
      [s[0]] + Insert(x, s[1..], le)
  }

  /** The stable sort of `s` by `le`. Whatever the relation, the result is a
      permutation of the input: nothing is added, dropped or duplicated. */
  function Sort<T>(s: seq<T>, le: (T, T) -> bool): (r: seq<T>)
    ensures multiset(r) == multiset(s)
    ensures |r| == |s|
  {
    if |s| == 0 then []
    else
      assert s == [s[0]] + s[1..];
      Insert(s[0], Sort(s[1..], le), le)
  }

  lemma {:induction false} InsertSorted<T(!new)>(x: T, s: seq<T>, le: (T, T) -> bool)
    requires TotalPreorder(le)
    requires SortedBy(s, le)
    ensures SortedBy(Insert(x, s, le), le)
  {
    if |s| > 0 && !le(x, s[0]) {
      var tail := Insert(x, s[1..], le);
      InsertSorted(x, s[1..], le);
      forall y | y in tail ensures le(s[0], y) {
        assert y in multiset(tail);
        if y != x {
          assert y in multiset(s[1..]);
          var j :| 0 <= j < |s[1..]| && s[1..][j] == y;
          assert s[j + 1] == y;
        }
      }
      var r := [s[0]] + tail;
      forall i, j | 0 <= i < j < |r| ensures le(r[i], r[j]) {
        if i == 0 {
          assert r[j] in tail;
        } else {
          assert r[i] == tail[i - 1] && r[j] == tail[j - 1];
        }
      }
    } else if |s| > 0 {
      var r := [x] + s;
      forall i, j | 0 <= i < j < |r| ensures le(r[i], r[j]) {
        if i == 0 && j > 1 {
          assert le(s[0], s[j - 1]);
        }
      }
    }
  }

  /** For a consistent comparator the result is in order. */
  lemma {:induction false} SortSorted<T(!new)>(s: seq<T>, le: (T, T) -> bool)
    requires TotalPreorder(le)
    ensures SortedBy(Sort(s, le), le)
  {
    if |s| > 0 {
      SortSorted(s[1..], le);
      InsertSorted(s[0], Sort(s[1..], le), le);
    }
  }

  lemma {:induction false} InsertTies<T(!new)>(x: T, s: seq<T>, le: (T, T) -> bool, y: T)
    requires forall z :: le(x, y) && le(y, z) ==> le(x, z)
    ensures le(y, x) && le(x, y) ==> Ties(Insert(x, s, le), le, y) == [x] + Ties(s, le, y)
    ensures !(le(y, x) && le(x, y)) ==> Ties(Insert(x, s, le), le, y) == Ties(s, le, y)
  {
    if |s| == 0 {
    } else if le(x, s[0]) {
      assert ([x] + s)[1..] == s;
    } else {
      var rest := Insert(x, s[1..], le);
      InsertTies(x, s[1..], le, y);
      assert ([s[0]] + rest)[1..] == rest;
      if le(y, x) && le(x, y) {
        // s[0] lies strictly below x, so it cannot be tied with y
        assert !le(y, s[0]);
      }
    }
  }

  /** The sort is stable: the elements tied with any `y` come out in the
      order they went in. */
  lemma {:induction false} SortStable<T(!new)>(s: seq<T>, le: (T, T) -> bool, y: T)
    requires TotalPreorder(le)
    ensures Ties(Sort(s, le), le, y) == Ties(s, le, y)
  {
    if |s| > 0 {
      SortStable(s[1..], le, y);
      SortSorted(s[1..], le);
      InsertTies(s[0], Sort(s[1..], le), le, y);
    }
  }
}

=== FILE: text.dfy ===
/** String operations the components borrow from the JavaScript runtime:
    `toLowerCase`, `trim`, `includes`, `startsWith`, `localeCompare` and the
    decimal rendering of numbers. Lower-casing is modelled on the ASCII
    letters only, and `localeCompare` as the code-point lexicographic order. */
module Text {

  // ---------------------------------------------------------------------
  // Lower-casing

  predicate IsUpperAscii(c: char) {
    'A' <= c <= 'Z'
  }

  function LowerChar(c: char): (d: char)
    ensures !IsUpperAscii(d)
  {
    if IsUpperAscii(c) then (c as int + 32) as char else c
  }

  /** `toLowerCase`, on the ASCII letters. */
  function Lower(s: string): (r: string)
    ensures |r| == |s|
    ensures forall i :: 0 <= i < |s| ==> r[i] == LowerChar(s[i])
  {
    seq(|s|, i requires 0 <= i < |s| => LowerChar(s[i]))
  }

  /** No character of `s` is an upper-case letter. */
  predicate IsLower(s: string) {
    forall i :: 0 <= i < |s| ==> !IsUpperAscii(s[i])
  }

  /** Lower-casing produces a lower-case string, and leaves a lower-case
      string as it is; so it is idempotent. */
  lemma LowerFacts(s: string)
    ensures IsLower(Lower(s))
    ensures IsLower(s) ==> Lower(s) == s
    ensures Lower(Lower(s)) == Lower(s)
  {
  }

  // ---------------------------------------------------------------------
  // Whitespace and `trim`

  /** The characters `String.prototype.trim` removes: the ECMAScript
      WhiteSpace and LineTerminator code points. */
  predicate IsSpace(c: char) {
    || c == '\t' || c == '\n' || c == '\U{000B}' || c == '\U{000C}' || c == '\r'
    || c == ' ' || c == '\U{00A0}' || c == '\U{1680}'
    || ('\U{2000}' <= c <= '\U{200A}')
    || c == '\U{2028}' || c == '\U{2029}' || c == '\U{202F}' || c == '\U{205F}'
    || c == '\U{3000}' || c == '\U{FEFF}'
  }

  predicate AllSpace(s: string) {
    forall i :: 0 <= i < |s| ==> IsSpace(s[i])
  }

  function TrimStart(s: string): string {
    if |s| > 0 && IsSpace(s[0]) then TrimStart(s[1..]) else s
  }

  function TrimEnd(s: string): string {
    if |s| > 0 && IsSpace(s[|s| - 1]) then TrimEnd(s[..|s| - 1]) else s
  }

  /** `trim`: drops leading and trailing whitespace. */
  function Trim(s: string): string {
    TrimEnd(TrimStart(s))
  }

  /** `s.trim() === ""` */
  predicate IsBlank(s: string) {
    Trim(s) == ""
  }

  lemma {:induction false} TrimStartEmpty(s: string)
    ensures TrimStart(s) == "" <==> AllSpace(s)
  {
    if |s| > 0 && IsSpace(s[0]) {
      TrimStartEmpty(s[1..]);
      assert AllSpace(s) <==> AllSpace(s[1..]) by {
        if AllSpace(s[1..]) {
          forall i | 0 <= i < |s| ensures IsSpace(s[i]) {
            if i > 0 { assert s[i] == s[1..][i - 1]; }
          }
        }
      }
    }
  }

  lemma {:induction false} TrimEndEmpty(s: string)
    ensures TrimEnd(s) == "" <==> AllSpace(s)
  {
    if |s| > 0 && IsSpace(s[|s| - 1]) {
      var p := s[..|s| - 1];
      TrimEndEmpty(p);
      assert AllSpace(s) <==> AllSpace(p) by {
        if AllSpace(p) {
          forall i | 0 <= i < |s| ensures IsSpace(s[i]) {
            if i < |s| - 1 { assert s[i] == p[i]; }
          }
        }
      }
    }
  }

  /** A string trims to nothing exactly when every character of it is
      whitespace. */
  lemma BlankIffAllSpace(s: string)
    ensures IsBlank(s) <==> AllSpace(s)
  {
    TrimStartEmpty(s);
    TrimEndEmpty(TrimStart(s));
    TrimStartNotSpace(s);
  }

  lemma {:induction false} TrimStartNotSpace(s: string)
    ensures TrimStart(s) != "" ==> !IsSpace(TrimStart(s)[0])
  {
    if |s| > 0 && IsSpace(s[0]) {
      TrimStartNotSpace(s[1..]);
    }
  }

  // ---------------------------------------------------------------------
  // `startsWith` and `includes`

  /** `s.startsWith(prefix)` */
  predicate StartsWith(s: string, prefix: string) {
    |prefix| <= |s| && s[..|prefix|] == prefix
  }

  /** `part` occurs in `s` at position `i`. */
  predicate OccursAt(s: string, part: string, i: int) {
    0 <= i && i + |part| <= |s| && s[i..i + |part|] == part
  }

  /** `s.includes(part)`, scanning the start positions left to right. */
  predicate Contains(s: string, part: string)
    decreases |s|
  {
    StartsWith(s, part) || (|s| > 0 && Contains(s[1..], part))
  }

  /** The scan finds `part` exactly when it occurs somewhere in `s`. */
  lemma {:induction false} ContainsIff(s: string, part: string)
    ensures Contains(s, part) <==> exists i :: OccursAt(s, part, i)
  {
    if StartsWith(s, part) {
      assert OccursAt(s, part, 0);
    } else if |s| > 0 {
      ContainsIff(s[1..], part);
      if Contains(s[1..], part) {
        var i :| OccursAt(s[1..], part, i);
        assert s[1..][i..i + |part|] == s[i + 1..i + 1 + |part|];
        assert OccursAt(s, part, i + 1);
      }
      if i :| OccursAt(s, part, i) {
        assert i != 0;
        assert s[1..][i - 1..i - 1 + |part|] == s[i..i + |part|];
        assert OccursAt(s[1..], part, i - 1);
      }
    }
  }

  // ---------------------------------------------------------------------
  // The code-point order (in place of `localeCompare`)

  /** Negative, zero or positive as `a` sorts before, equal to, or after
      `b` in the lexicographic order of code points. */
  function Compare(a: string, b: string): (r: int)
    ensures -1 <= r <= 1
    decreases |a|
  {
    if |a| == 0 && |b| == 0 then 0
    else if |a| == 0 then -1
    else if |b| == 0 then 1
    else if a[0] < b[0] then -1
    else if b[0] < a[0] then 1
    else Compare(a[1..], b[1..])
  }

  /** `a` sorts before or equal to `b`. */
  predicate LexLe(a: string, b: string) {
    Compare(a, b) <= 0
  }

  /** `a` comes strictly before `b` in the lexicographic order of code
      points: it is a proper prefix of `b`, or at the first position where
      they differ its code point is the smaller. */
  ghost predicate LexLess(a: string, b: string) {
    || (|a| < |b| && a == b[..|a|])
    || exists k :: 0 <= k < |a| && k < |b| && a[..k] == b[..k] && a[k] < b[k]
  }

  /** Strings with different first characters are ordered by those. */
  lemma LexLessHead(a: string, b: string)
    requires |a| > 0 && |b| > 0 && a[0] != b[0]
    ensures LexLess(a, b) <==> a[0] < b[0]
  {
    if a[0] < b[0] {
      assert a[..0] == b[..0];
    } else {
      forall k | 0 < k <= |a| && k <= |b| ensures a[..k] != b[..k] {
        assert a[..k][0] != b[..k][0];
      }
    }
  }

  /** Sharing a first character, `a` is a proper prefix of `b` exactly when
      its rest is a proper prefix of the rest of `b`. */
  lemma PrefixTail(a: string, b: string)
    requires |a| > 0 && |b| > 0 && a[0] == b[0]
    ensures (|a| < |b| && a == b[..|a|]) <==> (|a[1..]| < |b[1..]| && a[1..] == b[1..][..|a[1..]|])
  {
    if |a| < |b| {
      assert b[..|a|] == [b[0]] + b[1..][..|a[1..]|];
      assert a == [a[0]] + a[1..];
    }
  }

  /** Sharing a first character, a first upward difference of `a` and `b`
      is one position later than a first upward difference of their rests. */
  lemma FirstDifferenceShift(a: string, b: string, k: int)
    requires |a| > 0 && |b| > 0 && a[0] == b[0]
    requires 0 <= k < |a[1..]| && k < |b[1..]|
    ensures (a[1..][..k] == b[1..][..k] && a[1..][k] < b[1..][k]) <==>
      (a[..k + 1] == b[..k + 1] && a[k + 1] < b[k + 1])
  {
    assert a[..k + 1] == [a[0]] + a[1..][..k] && b[..k + 1] == [b[0]] + b[1..][..k];
  }

  /** Sharing a first character, `a` and `b` first differ upwards exactly
      when their rests do. */
  lemma FirstDifferenceTail(a: string, b: string)
    requires |a| > 0 && |b| > 0 && a[0] == b[0]
    ensures (exists k :: 0 <= k < |a| && k < |b| && a[..k] == b[..k] && a[k] < b[k]) <==>
      (exists k :: 0 <= k < |a[1..]| && k < |b[1..]| && a[1..][..k] == b[1..][..k] && a[1..][k] < b[1..][k])
  {
    if exists k :: 0 <= k < |a| && k < |b| && a[..k] == b[..k] && a[k] < b[k] {
      var k :| 0 <= k < |a| && k < |b| && a[..k] == b[..k] && a[k] < b[k];
      FirstDifferenceShift(a, b, k - 1);
    }
    if exists k :: 0 <= k < |a[1..]| && k < |b[1..]| && a[1..][..k] == b[1..][..k] && a[1..][k] < b[1..][k] {
      var k :| 0 <= k < |a[1..]| && k < |b[1..]| && a[1..][..k] == b[1..][..k] && a[1..][k] < b[1..][k];
      FirstDifferenceShift(a, b, k);
    }
  }

  /** Compare is negative exactly when `a` precedes `b` lexicographically. */
  lemma {:induction false} CompareIsLexicographic(a: string, b: string)
    ensures Compare(a, b) < 0 <==> LexLess(a, b)
    decreases |a|
  {
    if |a| == 0 && |b| > 0 {
      assert a == b[..|a|];
    } else if |a| > 0 && |b| > 0 {
      if a[0] != b[0] {
        LexLessHead(a, b);
      } else {
        CompareIsLexicographic(a[1..], b[1..]);
        PrefixTail(a, b);
        FirstDifferenceTail(a, b);
      }
    }
  }

  /** Compare answers symmetrically and says 0 only for equal strings. */
  lemma {:induction false} CompareAntisymmetric(a: string, b: string)
    ensures Compare(a, b) == -Compare(b, a)
    ensures Compare(a, b) == 0 <==> a == b
    decreases |a|
  {
    if |a| > 0 && |b| > 0 && a[0] == b[0] {
      CompareAntisymmetric(a[1..], b[1..]);
      if a[1..] == b[1..] {
        assert a == [a[0]] + a[1..] && b == [b[0]] + b[1..];
      }
    }
  }

  lemma {:induction false} CompareTransitive(a: string, b: string, c: string)
    requires LexLe(a, b) && LexLe(b, c)
    ensures LexLe(a, c)
    decreases |a|
  {
    if |a| > 0 && |b| > 0 && |c| > 0 && a[0] == b[0] == c[0] {
      CompareTransitive(a[1..], b[1..], c[1..]);
    }
  }

  /** The code-point order is a total order on strings. */
  lemma LexLeTotalOrder(a: string, b: string, c: string)
    ensures LexLe(a, a)
    ensures LexLe(a, b) || LexLe(b, a)
    ensures LexLe(a, b) && LexLe(b, a) ==> a == b
    ensures LexLe(a, b) && LexLe(b, c) ==> LexLe(a, c)
  {
    CompareAntisymmetric(a, a);
    CompareAntisymmetric(a, b);
    if LexLe(a, b) && LexLe(b, c) {
      CompareTransitive(a, b, c);
    }
  }

  // ---------------------------------------------------------------------
  // Decimal numerals

  predicate IsDigit(c: char) {
    '0' <= c <= '9'
  }

  function DigitChar(d: int): (c: char)
    requires 0 <= d < 10
    ensures IsDigit(c)
  {
    ('0' as int + d) as char
  }

  function DigitValue(c: char): int
    requires IsDigit(c)
  {
    c as int - '0' as int
  }

  /** The shortest decimal numeral of `n` (what `n.toString()` gives). */
  function NatToString(n: nat): (r: string)
    ensures |r| >= 1
    ensures forall i :: 0 <= i < |r| ==> IsDigit(r[i])
  {
    if n < 10 then [DigitChar(n)] else NatToString(n / 10) + [DigitChar(n % 10)]
  }

  /** `n.toString()` for a possibly negative integer. */
  function IntToString(n: int): (r: string)
    ensures |r| >= 1
  {
    if n < 0 then "-" + NatToString(-n) else NatToString(n)
  }

  /** The value of a numeral. */
  function ParseNat(s: string): nat
    requires forall i :: 0 <= i < |s| ==> IsDigit(s[i])
  {
    if |s| == 0 then 0 else ParseNat(s[..|s| - 1]) * 10 + DigitValue(s[|s| - 1])
  }

  /** The numeral reads back as the number, and has no superfluous leading
      zero. */
  lemma {:induction false} NatToStringRoundTrip(n: nat)
    ensures ParseNat(NatToString(n)) == n
    ensures NatToString(n)[0] == '0' ==> n == 0
  {
    if n >= 10 {
      NatToStringRoundTrip(n / 10);
      var r := NatToString(n);
      assert r[..|r| - 1] == NatToString(n / 10);
    }
  }

  /** The tens and units digits of `n` are those of `n` modulo 100. */
  lemma DigitsModHundred(n: nat)
    ensures n / 10 % 10 == n % 100 / 10 && n % 10 == n % 100 % 10
  {
    var h := n / 100;
    var r := n % 100;
    assert n == 100 * h + r;
    assert n == 10 * (10 * h + r / 10) + r % 10;
  }

  /** A number modulo 100 is made of its tens and units digits. */
  lemma TensAndUnits(n: nat)
    ensures n % 100 == 10 * (n / 10 % 10) + n % 10
  {
    DigitsModHundred(n);
    var r := n % 100;
    assert r == 10 * (r / 10) + r % 10;
  }

  /** The numeral of a number of two or more digits ends with its tens
      and units digits. */
  lemma NumeralEnds(n: nat)
    requires n >= 10
    ensures exists p :: NatToString(n) == p + [DigitChar(n / 10 % 10), DigitChar(n % 10)]
  {
    var q := n / 10;
    var d1 := DigitChar(q % 10);
    var d0 := DigitChar(n % 10);
    assert NatToString(n) == NatToString(q) + [d0];
    var p: string;
    if q >= 10 {
      p := NatToString(q / 10);
      assert NatToString(q) == p + [d1];
    } else {
      p := [];
      assert NatToString(q) == p + [d1];
    }
    assert NatToString(n) == p + [d1, d0];
  }

  /** The last two digits of a numeral of two or more digits, which depend
      only on the number modulo 100. */
  lemma LastTwoDigits(n: nat)
    requires n >= 10
    ensures LastTwo(NatToString(n)) == [DigitChar(n / 10 % 10), DigitChar(n % 10)]
    ensures n / 10 % 10 == n % 100 / 10 && n % 10 == n % 100 % 10
  {
    NumeralEnds(n);
    var p :| NatToString(n) == p + [DigitChar(n / 10 % 10), DigitChar(n % 10)];
    DigitsModHundred(n);
  }

  /** `s.substr(-2)`: the last two characters, or all of a shorter string. */
  function LastTwo(s: string): (r: string)
    ensures |r| == if |s| < 2 then |s| else 2
    ensures forall i :: 0 <= i < |r| ==> r[i] == s[|s| - |r| + i]
  {
    if |s| < 2 then s else s[|s| - 2..]
  }
}

=== FILE: theme.dfy ===
/** The background gradients both pages give the four archive categories,
    and the style object a profile widget spreads into its `style`. */
module Theme {
  import opened Wrappers

  const BooksGradient: string := "linear-gradient(to bottom right, rgba(209, 166, 115, 1), rgba(184, 133, 89, 1), rgba(158, 107, 64, 1))"
  const TvGradient: string := "linear-gradient(to bottom right, rgba(20, 102, 122, 1), rgba(15, 71, 92, 1), rgba(10, 43, 61, 1))"
  const MusicGradient: string := "linear-gradient(to bottom right, rgba(255, 89, 102, 1), rgba(217, 64, 77, 1), rgba(179, 38, 51, 1))"
  const PodcastsGradient: string := "linear-gradient(to bottom right, rgba(204, 115, 242, 1), rgba(166, 77, 204, 1), rgba(128, 38, 166, 1))"

  /** The category page's fallback for any other category. */
  const DefaultGradient: string := "linear-gradient(to bottom right, #333, #222, #111)"

  /** The four category keys, in the order the profile lists its widgets. */
  const CategoryKeys: seq<string> := ["tv", "music", "podcasts", "books"]

  /** The gradient of a (lower-case) category key; `None` for any other
      string, where the two pages fall back differently. */
  function NamedGradient(key: string): (r: Option<string>)
    ensures r.Some? <==> key in CategoryKeys
    ensures r.Some? ==> r.value != DefaultGradient
  {
    if key == "books" then Some(BooksGradient)
    else if key == "tv" then Some(TvGradient)
    else if key == "music" then Some(MusicGradient)
    else if key == "podcasts" then Some(PodcastsGradient)
    else None
  }

  /** Each category has a gradient of its own. */
  lemma NamedGradientInjective(a: string, b: string)
    requires NamedGradient(a).Some? && NamedGradient(a) == NamedGradient(b)
    ensures a == b
  {
  }

  /** A style object: `{ background: g }` or `{ backgroundColor: c }`, where
      an absent `c` leaves the widget without a background. */
  datatype Style = Background(background: string) | BackgroundColor(color: Option<string>)
}

=== FILE: uri.dfy ===
/** `encodeURIComponent` and `decodeURIComponent` (section 19.2.6 of
    ECMA-262). Encoding keeps the unreserved marks and alphanumerics and
    writes every other code point as the `%XX` escapes of its UTF-8 bytes,
    with upper-case hex digits. Decoding reverses every escape, and fails
    (a `URIError`) on a malformed escape or an invalid UTF-8 sequence.
    A Dafny `char` is a Unicode scalar value, so the lone surrogates on
    which `encodeURIComponent` throws cannot occur. */
module UriComponent {
  import opened Wrappers

  type Byte = b: int | 0 <= b < 256

  /** The characters `encodeURIComponent` leaves as they are. */
  predicate IsUnescaped(c: char) {
    || ('A' <= c <= 'Z') || ('a' <= c <= 'z') || ('0' <= c <= '9')
    || c == '-' || c == '_' || c == '.' || c == '!' || c == '~'
    || c == '*' || c == '\'' || c == '(' || c == ')'
  }

  /** The UTF-8 encoding of a code point: 1 to 4 bytes, the lead byte
      carrying the length and each continuation byte six more bits. */
  function Utf8(c: char): (bs: seq<Byte>)
    ensures |bs| == if c as int < 0x80 then 1 else if c as int < 0x800 then 2 else if c as int < 0x10000 then 3 else 4
    ensures forall i :: 1 <= i < |bs| ==> 0x80 <= bs[i] < 0xC0
  {
    var v := c as int;
    var q1 := v / 64;
    var q2 := q1 / 64;
    var q3 := q2 / 64;
    if v < 0x80 then [v]
    else if v < 0x800 then [0xC0 + q1, 0x80 + v % 64]
    else if v < 0x10000 then [0xE0 + q2, 0x80 + q1 % 64, 0x80 + v % 64]
    else [0xF0 + q3, 0x80 + q2 % 64, 0x80 + q1 % 64, 0x80 + v % 64]
  }

  /** An upper-case hexadecimal digit. */
  function HexDigit(d: int): (c: char)
    requires 0 <= d < 16
    ensures IsUnescaped(c)
  {
    if d < 10 then ('0' as int + d) as char else ('A' as int + d - 10) as char
  }

  /** The value of a hexadecimal digit of either case. */
  function HexValue(c: char): (r: Option<int>)
    ensures r.Some? ==> 0 <= r.value < 16
    ensures r.Some? <==> ('0' <= c <= '9') || ('A' <= c <= 'F') || ('a' <= c <= 'f')
  {
    if '0' <= c <= '9' then Some(c as int - '0' as int)
    else if 'A' <= c <= 'F' then Some(c as int - 'A' as int + 10)
    else if 'a' <= c <= 'f' then Some(c as int - 'a' as int + 10)
    else None
  }

  lemma HexRoundTrip(d: int)
    requires 0 <= d < 16
    ensures HexValue(HexDigit(d)) == Some(d)
  {
  }

  /** `%XY` for one byte. */
  function Escape(b: Byte): string {
    ['%', HexDigit(b / 16), HexDigit(b % 16)]
  }

  /** The escapes of a byte sequence, one after another. */
  function EscapeAll(bs: seq<Byte>): (r: string)
    ensures |r| == 3 * |bs|
  {
    if |bs| == 0 then [] else Escape(bs[0]) + EscapeAll(bs[1..])
  }

  /** The `i`-th three characters of the escapes are the escape of the
      `i`-th byte. */
  lemma {:induction false} EscapeAllAt(bs: seq<Byte>, i: nat)
    requires i < |bs|
    ensures EscapeAll(bs)[3 * i..3 * i + 3] == Escape(bs[i])
  {
    var tail := EscapeAll(bs[1..]);
    var r := Escape(bs[0]) + tail;
    assert EscapeAll(bs) == r;
    if i > 0 {
      var j := 3 * (i - 1);
      EscapeAllAt(bs[1..], i - 1);
      assert r[3 * i..3 * i + 3] == tail[j..j + 3];
    }
  }

  /** Escapes consist of `%` and hexadecimal digits only. */
  lemma {:induction false} EscapeAllIsSafe(bs: seq<Byte>)
    ensures forall d :: d in EscapeAll(bs) ==> d == '%' || IsUnescaped(d)
  {
    if |bs| > 0 {
      EscapeAllIsSafe(bs[1..]);
    }
  }

  function EncodeChar(c: char): string {
    if IsUnescaped(c) then [c] else EscapeAll(Utf8(c))
  }

  /** `encodeURIComponent(s)` */
  function Encode(s: string): (r: string)
    ensures |r| >= |s|
  {
    if |s| == 0 then [] else EncodeChar(s[0]) + Encode(s[1..])
  }

  // ---------------------------------------------------------------------
  // Decoding

  /** The byte written by the escape at position `3 * i`, if there is one. */
  function ByteAt(s: string, i: nat): (r: Option<Byte>)
    ensures r.Some? ==> 3 * i + 3 <= |s|
  {
    if 3 * i + 2 < |s| && s[3 * i] == '%' then
      var hi :- HexValue(s[3 * i + 1]);
      var lo :- HexValue(s[3 * i + 2]);
      Some(hi * 16 + lo)
    else None
  }

  /** The six payload bits of the continuation byte escaped at `3 * i`. */
  function Continuation(s: string, i: nat): (r: Option<int>)
    ensures r.Some? ==> 0 <= r.value < 64 && 3 * i + 3 <= |s|
  {
    var b :- ByteAt(s, i);
    if 0x80 <= b < 0xC0 then Some(b - 0x80) else None
  }

  /** Decodes the escape sequence at the start of `s` (which starts with
      `%`): one to four escaped bytes forming one UTF-8 code point. Returns
      the character and the number of characters consumed; fails on a bad
      escape, a stray continuation byte, an invalid lead byte, a missing
      continuation byte, an overlong form, a surrogate or a value beyond
      U+10FFFF. */
  function DecodeEscape(s: string): (r: Option<(char, nat)>)
    ensures r.Some? ==> 3 <= r.value.1 <= |s|
  {
    var b :- ByteAt(s, 0);
    if b < 0x80 then Some((b as char, 3))
    else if b < 0xC0 then None
    else if b < 0xE0 then
      var c1 :- Continuation(s, 1);
      var v := (b - 0xC0) * 64 + c1;
      if v < 0x80 then None else Some((v as char, 6))
    else if b < 0xF0 then
      var c1 :- Continuation(s, 1);
      var c2 :- Continuation(s, 2);
      var v := ((b - 0xE0) * 64 + c1) * 64 + c2;
      if v < 0x800 || (0xD800 <= v < 0xE000) then None else Some((v as char, 9))
    else if b < 0xF8 then
      var c1 :- Continuation(s, 1);
      var c2 :- Continuation(s, 2);
      var c3 :- Continuation(s, 3);
      var v := (((b - 0xF0) * 64 + c1) * 64 + c2) * 64 + c3;
      if v < 0x10000 || v > 0x10FFFF then None else Some((v as char, 12))
    else None
  }

  /** `decodeURIComponent(s)`, or `None` where it throws a `URIError`. */
  function Decode(s: string): (r: Option<string>)
    ensures r.Some? ==> |r.value| <= |s|
    decreases |s|
  {
    if |s| == 0 then Some([])
    else if s[0] != '%' then
      var rest :- Decode(s[1..]);
      Some([s[0]] + rest)
    else
      var e :- DecodeEscape(s);
      var rest :- Decode(s[e.1..]);
      Some([e.0] + rest)
  }

  // ---------------------------------------------------------------------
  // Properties

  lemma {:induction false} EscapedBytes(bs: seq<Byte>, rest: string, i: nat)
    requires i < |bs|
    ensures ByteAt(EscapeAll(bs) + rest, i) == Some(bs[i])
  {
    var s := EscapeAll(bs) + rest;
    EscapeAllAt(bs, i);
    assert s[3 * i..3 * i + 3] == Escape(bs[i]);
    HexRoundTrip(bs[i] / 16);
    HexRoundTrip(bs[i] % 16);
  }

  /** The lead byte and continuation payloads of `c`'s encoding are escaped
      at the start of `s`. */
  ghost predicate EscapesOf(c: char, s: string) {
    && ByteAt(s, 0) == Some(Utf8(c)[0])
    && forall i :: 1 <= i < |Utf8(c)| ==> Continuation(s, i) == Some(Utf8(c)[i] - 0x80)
  }

  lemma DecodeOneByte(c: char, s: string)
    requires c as int < 0x80 && EscapesOf(c, s)
    ensures DecodeEscape(s) == Some((c, 3))
  {
  }

  lemma DecodeTwoBytes(c: char, s: string)
    requires 0x80 <= c as int < 0x800 && EscapesOf(c, s)
    ensures DecodeEscape(s) == Some((c, 6))
  {
    var v := c as int;
    assert Continuation(s, 1) == Some(v % 64);
    assert (v / 64) * 64 + v % 64 == v;
  }

  lemma DecodeThreeBytes(c: char, s: string)
    requires 0x800 <= c as int < 0x10000 && EscapesOf(c, s)
    ensures DecodeEscape(s) == Some((c, 9))
  {
    var v := c as int;
    var q1 := v / 64;
    assert Continuation(s, 1) == Some(q1 % 64);
    assert Continuation(s, 2) == Some(v % 64);
    assert q1 * 64 + v % 64 == v;
    assert (q1 / 64) * 64 + q1 % 64 == q1;
  }

  /** A code point is its four six-bit groups put back together. */
  lemma SixBitGroups(v: int)
    requires v >= 0
    ensures ((v / 64 / 64 / 64 * 64 + v / 64 / 64 % 64) * 64 + v / 64 % 64) * 64 + v % 64 == v
  {
    var q1 := v / 64;
    var q2 := q1 / 64;
    assert q1 * 64 + v % 64 == v;
    assert q2 * 64 + q1 % 64 == q1;
    assert (q2 / 64) * 64 + q2 % 64 == q2;
  }

  /** The four escaped bytes of a supplementary code point, as the decoder
      reads them. */
  lemma FourByteEscapes(c: char, s: string)
    requires 0x10000 <= c as int && EscapesOf(c, s)
    ensures var v := c as int;
      && ByteAt(s, 0) == Some(0xF0 + v / 64 / 64 / 64)
      && Continuation(s, 1) == Some(v / 64 / 64 % 64)
      && Continuation(s, 2) == Some(v / 64 % 64)
      && Continuation(s, 3) == Some(v % 64)
  {
    var v := c as int;
    assert Utf8(c) == [0xF0 + v / 64 / 64 / 64, 0x80 + v / 64 / 64 % 64, 0x80 + v / 64 % 64, 0x80 + v % 64];
  }

  lemma DecodeFourBytes(c: char, s: string)
    requires 0x10000 <= c as int && EscapesOf(c, s)
    ensures DecodeEscape(s) == Some((c, 12))
  {
    FourByteEscapes(c, s);
    SixBitGroups(c as int);
  }

  lemma ContinuationOf(s: string, i: nat, b: int)
    requires ByteAt(s, i) == Some(b) && 0x80 <= b < 0xC0
    ensures Continuation(s, i) == Some(b - 0x80)
  {
  }

  /** The escapes of `c`'s encoding, followed by anything, are escapes of
      `c` in the sense the decoder reads them. */
  lemma EncodedEscapes(c: char, rest: string)
    ensures EscapesOf(c, EscapeAll(Utf8(c)) + rest)
  {
    var bs := Utf8(c);
    var s := EscapeAll(bs) + rest;
    EscapedBytes(bs, rest, 0);
    forall i | 1 <= i < |bs| ensures Continuation(s, i) == Some(bs[i] - 0x80) {
      EscapedBytes(bs, rest, i);
      ContinuationOf(s, i, bs[i]);
    }
  }

  /** The escapes of a character's UTF-8 bytes decode back to the character,
      consuming exactly those escapes. */
  lemma DecodeEscapedChar(c: char, rest: string)
    ensures DecodeEscape(EscapeAll(Utf8(c)) + rest) == Some((c, |EscapeAll(Utf8(c))|))
  {
    var v := c as int;
    var s := EscapeAll(Utf8(c)) + rest;
    EncodedEscapes(c, rest);
    if v < 0x80 {
      DecodeOneByte(c, s);
    } else if v < 0x800 {
      DecodeTwoBytes(c, s);
    } else if v < 0x10000 {
      DecodeThreeBytes(c, s);
    } else {
      DecodeFourBytes(c, s);
    }
  }

  lemma DecodePlain(s: string, t: string)
    requires |s| > 0 && s[0] != '%'
    requires Decode(s[1..]) == Some(t)
    ensures Decode(s) == Some([s[0]] + t)
  {
  }

  lemma DecodeEscaped(s: string, c: char, n: nat, t: string)
    requires |s| > 0 && s[0] == '%'
    requires DecodeEscape(s) == Some((c, n))
    requires Decode(s[n..]) == Some(t)
    ensures Decode(s) == Some([c] + t)
  {
  }

  /** Decoding undoes encoding: `decodeURIComponent(encodeURIComponent(s))`
      gives back `s` for every string. */
  lemma {:induction false} DecodeEncode(s: string)
    ensures Decode(Encode(s)) == Some(s)
  {
    if |s| > 0 {
      var c := s[0];
      var tail := Encode(s[1..]);
      DecodeEncode(s[1..]);
      var e := Encode(s);
      assert e == EncodeChar(c) + tail;
      if IsUnescaped(c) {
        assert e[0] == c && e[1..] == tail;
        DecodePlain(e, s[1..]);
      } else {
        var esc := EscapeAll(Utf8(c));
        DecodeEscapedChar(c, tail);
        assert e[0] == '%';
        assert e[|esc|..] == tail;
        DecodeEscaped(e, c, |esc|, s[1..]);
      }
      assert s == [c] + s[1..];
    }
  }

  lemma EncodeCharIsSafe(c: char)
    ensures forall d :: d in EncodeChar(c) ==> d == '%' || IsUnescaped(d)
  {
    if !IsUnescaped(c) {
      EscapeAllIsSafe(Utf8(c));
    }
  }

  /** Every character of an encoding is an unescaped one or the `%` of an
      escape; in particular it never holds a `/`, so it is one path
      segment. */
  lemma {:induction false} EncodeIsSafe(s: string)
    ensures forall d :: d in Encode(s) ==> d == '%' || IsUnescaped(d)
    ensures '/' !in Encode(s)
  {
    if |s| > 0 {
      EncodeIsSafe(s[1..]);
      EncodeCharIsSafe(s[0]);
      assert Encode(s) == EncodeChar(s[0]) + Encode(s[1..]);
    }
  }

  /** Encoding changes a string exactly when some character of it is not
      an unescaped one. */
  lemma {:induction false} EncodeIdentityIff(s: string)
    ensures Encode(s) == s <==> forall i :: 0 <= i < |s| ==> IsUnescaped(s[i])
  {
    if |s| > 0 {
      EncodeIdentityIff(s[1..]);
      var tail := Encode(s[1..]);
      if IsUnescaped(s[0]) {
        assert Encode(s) == [s[0]] + tail;
        assert s == [s[0]] + s[1..];
        if Encode(s) == s {
          assert tail == s[1..];
        }
        assert (forall i :: 0 <= i < |s| ==> IsUnescaped(s[i])) <==> (forall i :: 0 <= i < |s[1..]| ==> IsUnescaped(s[1..][i])) by {
          if forall i :: 0 <= i < |s[1..]| ==> IsUnescaped(s[1..][i]) {
            forall i | 0 <= i < |s| ensures IsUnescaped(s[i]) {
              if i > 0 { assert s[i] == s[1..][i - 1]; }
            }
          }
        }
      } else {
        assert |EncodeChar(s[0])| >= 3;
      }
    }
  }
}

=== FILE: user_profile.dfy ===
/** The profile page (`src/components/UserProfile.jsx`): a user's entries
    sorted into four category widgets, each linking to its category page. */
module UserProfile {
  import opened Wrappers
  import opened Text
  import Keyed
  import Theme
  import opened Archive
  import CategoryPage

  // ---------------------------------------------------------------------
  // Categorisation

  /** `entry.category?.toLowerCase()` */
  function CategoryKey(e: Entry): Option<string> {
    match e.category
    case None => None
    case Some(c) => Some(Lower(c))
  }

  /** `entries.filter((entry) => entry.category?.toLowerCase() === key)` */
  function Bucket(entries: seq<Entry>, key: string): seq<Entry> {
    Keyed.WithKey(entries, CategoryKey, Some(key))
  }

  datatype Categorized = Categorized(tv: seq<Entry>, music: seq<Entry>, podcasts: seq<Entry>, books: seq<Entry>)

  /** The field of `c` that holds the bucket of one of the four keys. */
  function BucketOf(c: Categorized, key: string): seq<Entry>
    requires key in Theme.CategoryKeys
  {
    if key == "tv" then c.tv
    else if key == "music" then c.music
    else if key == "podcasts" then c.podcasts
    else c.books
  }

  /** `b` holds, in their order in `entries` and as often as there, exactly
      the entries whose lower-cased category is `key`. */
  ghost predicate IsBucket(b: seq<Entry>, entries: seq<Entry>, key: string) {
    && (forall e :: e in b <==> e in entries && CategoryKey(e) == Some(key))
    && (forall e :: multiset(b)[e] == if CategoryKey(e) == Some(key) then multiset(entries)[e] else 0)
    && Keyed.IsSubsequence(b, entries)
  }

  lemma BucketIsBucket(entries: seq<Entry>, key: string)
    ensures IsBucket(Bucket(entries, key), entries, key)
  {
    Keyed.WithKeySelects(entries, CategoryKey, Some(key));
  }

  /** The `categorized` object: each of the four buckets is the order-
      preserving selection of the entries of its category. */
  function Categorize(entries: seq<Entry>): (r: Categorized)
    ensures forall key :: key in Theme.CategoryKeys ==> IsBucket(BucketOf(r, key), entries, key)
  {
    var r := Categorized(Bucket(entries, "tv"), Bucket(entries, "music"), Bucket(entries, "podcasts"), Bucket(entries, "books"));
    assert forall key :: key in Theme.CategoryKeys ==> IsBucket(BucketOf(r, key), entries, key) by {
      forall key | key in Theme.CategoryKeys ensures IsBucket(BucketOf(r, key), entries, key) {
        BucketIsBucket(entries, key);
      }
    }
    r
  }

  /** No entry is in two buckets. */
  lemma BucketsDisjoint(entries: seq<Entry>, k1: string, k2: string, e: Entry)
    requires k1 in Theme.CategoryKeys && k2 in Theme.CategoryKeys && k1 != k2
    ensures !(e in BucketOf(Categorize(entries), k1) && e in BucketOf(Categorize(entries), k2))
  {
  }

  /** Categories that differ only in case go to the same bucket: an entry
      filed as "TV" is in the tv bucket just like one filed as "tv". */
  lemma CategorizeIgnoresCase(entries: seq<Entry>, a: Entry, b: Entry, key: string)
    requires a in entries && b in entries && key in Theme.CategoryKeys
    requires a.category.Some? && b.category.Some? && Lower(a.category.value) == Lower(b.category.value)
    ensures a in BucketOf(Categorize(entries), key) <==> b in BucketOf(Categorize(entries), key)
  {
  }

  /** The entry has a category that lower-cases to one of the four keys. */
  predicate IsClassified(e: Entry) {
    CategoryKey(e).Some? && CategoryKey(e).value in Theme.CategoryKeys
  }

  /** An entry with no category, or any other category (the singular
      "podcast" or "book" included), is in no bucket. */
  lemma UnclassifiedInNoBucket(entries: seq<Entry>, e: Entry, key: string)
    requires !IsClassified(e) && key in Theme.CategoryKeys
    ensures e !in BucketOf(Categorize(entries), key)
  {
  }

  lemma SingularCategoriesUnclassified(e: Entry)
    requires e.category == Some("podcast") || e.category == Some("Book")
    ensures !IsClassified(e)
  {
    assert Lower("podcast") == "podcast";
    assert Lower("Book") == "book";
  }

  /** The entries the profile shows in no widget. */
  function Unclassified(entries: seq<Entry>): seq<Entry> {
    Keyed.WithKey(entries, IsClassified, false)
  }

  /** The four buckets and the unclassified entries account for every
      fetched entry exactly once. */
  lemma {:induction false} CategorizeCounts(entries: seq<Entry>)
    ensures var r := Categorize(entries);
      |r.tv| + |r.music| + |r.podcasts| + |r.books| + |Unclassified(entries)| == |entries|
  {
    if |entries| > 0 {
      CategorizeCounts(entries[1..]);
    }
  }

  // ---------------------------------------------------------------------
  // Widgets

  /** The widgets the profile renders, in order; none passes a
      `backgroundColor`. */
  const WidgetTitles: seq<string> := ["TV", "Music", "Podcasts", "Books"]

  /** A rendered widget: its title and the entries it is given. */
  datatype Widget = Widget(title: string, entries: seq<Entry>)

  /** The four widgets of the profile, each given one bucket: widget `i` is
      titled `WidgetTitles[i]` and shows exactly the entries whose
      lower-cased category is the `i`-th key, in fetched order. */
  function Widgets(entries: seq<Entry>): (ws: seq<Widget>)
    ensures |ws| == |WidgetTitles| == |Theme.CategoryKeys|
    ensures forall i :: 0 <= i < |ws| ==> ws[i].title == WidgetTitles[i]
    ensures forall i :: 0 <= i < |ws| ==> IsBucket(ws[i].entries, entries, Theme.CategoryKeys[i])
  {
    var c := Categorize(entries);
    seq(|WidgetTitles|, i requires 0 <= i < |WidgetTitles| => Widget(WidgetTitles[i], BucketOf(c, Theme.CategoryKeys[i])))
  }

  /** `handleCategoryClick`: the path a widget navigates to. */
  function CategoryPath(title: string): (p: string)
    ensures StartsWith(p, "/category/")
    ensures p[|"/category/"|..] == Lower(title)
  {
    var p := "/category/" + Lower(title);
    assert p[..|"/category/"|] == "/category/";
    p
  }

  /** The widget's `getGradientStyle(title)`: the category gradient for the
      four titles in any case, else the supplied background colour. */
  function ProfileStyle(title: string, backgroundColor: Option<string>): (s: Theme.Style)
    ensures s.Background? <==> Lower(title) in Theme.CategoryKeys
    ensures s.Background? ==> Theme.NamedGradient(Lower(title)) == Some(s.background)
    ensures !s.Background? ==> s == Theme.BackgroundColor(backgroundColor)
  {
    match Theme.NamedGradient(Lower(title))
    case Some(g) => Theme.Background(g)
    case None => Theme.BackgroundColor(backgroundColor)
  }

  /** Both pages paint a category in the same gradient; a title outside
      the four gets the dark default on the category page but only the
      supplied colour on the profile. */
  lemma StylesAgreeAcrossPages(title: string, backgroundColor: Option<string>)
    ensures ProfileStyle(title, backgroundColor).Background? ==>
      ProfileStyle(title, backgroundColor).background == CategoryPage.CategoryGradient(title)
    ensures !ProfileStyle(title, backgroundColor).Background? ==>
      CategoryPage.CategoryGradient(title) == Theme.DefaultGradient
  {
  }

  /** Each widget shows the bucket of its own title, has a gradient, and
      links to the category page that queries that bucket's key, paints it
      in the same gradient and heads it with the category's own verb. */
  lemma WidgetsLinkToTheirCategory(entries: seq<Entry>, i: int)
    requires 0 <= i < |WidgetTitles|
    ensures var w := Widgets(entries)[i];
      && w.title == WidgetTitles[i]
      && IsBucket(w.entries, entries, Lower(w.title))
    ensures var title := WidgetTitles[i];
      var name := CategoryPath(title)[|"/category/"|..];
      && Lower(title) == Theme.CategoryKeys[i]
      && ProfileStyle(title, None).Background?
      && CategoryPage.QueryKey(name) == Theme.CategoryKeys[i]
      && CategoryPage.CategoryGradient(name) == ProfileStyle(title, None).background
      && CategoryPage.HeadingVerb(name) != "Added in"
      && CategoryPage.HeadingVerb(name) == CategoryPage.CategoryVerbs[Theme.CategoryKeys[i]]
  {
    var key := Theme.CategoryKeys[i];
    assert Lower(WidgetTitles[i]) == key by {
      assert Lower("TV") == "tv";
      assert Lower("Music") == "music";
      assert Lower("Podcasts") == "podcasts";
      assert Lower("Books") == "books";
    }
    LowerFacts(key);
  }
}

=== FILE: users_list.dfy ===
/** The searchable user directory (`src/components/UsersList_backup.jsx`):
    the search effect that filters and ranks the users, the state rules of
    the search box, and the route parameter a selected user navigates to. */
module UsersList {
  import opened Wrappers
  import opened Text
  import Sorting
  import Keyed
  import UriComponent

  datatype User = User(id: string, username: Option<string>, fullName: Option<string>, name: Option<string>)

  // ---------------------------------------------------------------------
  // Matching

  /** `field?.toLowerCase().includes(term)`: an absent field never matches. */
  predicate FieldMatches(field: Option<string>, term: string) {
    field.Some? && Contains(Lower(field.value), term)
  }

  /** The filter of the search effect: the (already lower-cased) term occurs
      in the lower-cased username, full name or name. The name is guarded by
      `user.name &&`, so an empty name is skipped as well. */
  predicate Matches(u: User, term: string) {
    || FieldMatches(u.username, term)
    || FieldMatches(u.fullName, term)
    || (u.name.Some? && u.name.value != "" && Contains(Lower(u.name.value), term))
  }

  function MatchesIn(term: string): User -> bool {
    u => Matches(u, term)
  }

  // ---------------------------------------------------------------------
  // Ranking

  /** `(user.username || "").toLowerCase()` */
  function SortName(u: User): string {
    Lower(u.username.GetOr(""))
  }

  /** The user's lower-cased username starts with the term. */
  predicate Leads(u: User, term: string) {
    StartsWith(SortName(u), term)
  }

  /** The comparator: users whose username starts with the term first, then
      by lower-cased username. */
  function CompareUsers(a: User, b: User, term: string): (r: int)
    ensures r < 0 <==> (Leads(a, term) && !Leads(b, term)) || (Leads(a, term) == Leads(b, term) && Compare(SortName(a), SortName(b)) < 0)
  {
    if Leads(a, term) && !Leads(b, term) then -1
    else if !Leads(a, term) && Leads(b, term) then 1
    else Compare(SortName(a), SortName(b))
  }

  /** The order the comparator sorts by: `a` may stay before `b`. */
  function RankOrder(term: string): (User, User) -> bool {
    (a, b) => CompareUsers(a, b, term) <= 0
  }

  /** `r` lists users whose username starts with the term before all
      others, and each of the two tiers in ascending lower-cased username. */
  ghost predicate IsRanked(r: seq<User>, term: string) {
    && (forall i, j :: 0 <= i < j < |r| && Leads(r[j], term) ==> Leads(r[i], term))
    && (forall i, j :: 0 <= i < j < |r| && Leads(r[i], term) == Leads(r[j], term) ==> LexLe(SortName(r[i]), SortName(r[j])))
  }

  lemma RankOrderIsTotal(term: string)
    ensures Sorting.TotalPreorder(RankOrder(term))
  {
    var le := RankOrder(term);
    forall a, b ensures le(a, b) || le(b, a) {
      CompareAntisymmetric(SortName(a), SortName(b));
    }
    forall a, b, c | le(a, b) && le(b, c) ensures le(a, c) {
      LexLeTotalOrder(SortName(a), SortName(b), SortName(c));
    }
  }

  lemma SortedIsRanked(r: seq<User>, term: string)
    requires Sorting.SortedBy(r, RankOrder(term))
    ensures IsRanked(r, term)
  {
    forall i, j | 0 <= i < j < |r| && Leads(r[i], term) == Leads(r[j], term) ensures LexLe(SortName(r[i]), SortName(r[j])) {
      assert RankOrder(term)(r[i], r[j]);
    }
    forall i, j | 0 <= i < j < |r| && Leads(r[j], term) ensures Leads(r[i], term) {
      assert RankOrder(term)(r[i], r[j]);
    }
  }

  // ---------------------------------------------------------------------
  // The search effect

  /** What the search effect stores as the filtered users: every user for
      a blank term; otherwise the matching users, ranked. The term is
      lower-cased but not trimmed before matching. */
  function Search(users: seq<User>, searchTerm: string): (r: seq<User>)
    ensures IsBlank(searchTerm) ==> r == users
    ensures !IsBlank(searchTerm) ==> forall u :: multiset(r)[u] == if Matches(u, Lower(searchTerm)) then multiset(users)[u] else 0
    ensures !IsBlank(searchTerm) ==> forall u :: u in r <==> u in users && Matches(u, Lower(searchTerm))
    ensures !IsBlank(searchTerm) ==> IsRanked(r, Lower(searchTerm))
  {
    if IsBlank(searchTerm) then users
    else
      var term := Lower(searchTerm);
      var matches := Keyed.WithKey(users, MatchesIn(term), true);
      Keyed.WithKeySelects(users, MatchesIn(term), true);
      RankOrderIsTotal(term);
      Sorting.SortSorted(matches, RankOrder(term));
      SortedIsRanked(Sorting.Sort(matches, RankOrder(term)), term);
      var r := Sorting.Sort(matches, RankOrder(term));
      assert forall u :: u in r <==> u in multiset(r);
      r
  }

  /** The comparator calls two users equal exactly when their lower-cased
      usernames are equal. */
  lemma {:induction false} TiesAreSameName(s: seq<User>, term: string, y: User)
    ensures Sorting.Ties(s, RankOrder(term), y) == Keyed.WithKey(s, SortName, SortName(y))
  {
    if |s| > 0 {
      TiesAreSameName(s[1..], term, y);
      CompareAntisymmetric(SortName(y), SortName(s[0]));
    }
  }

  /** The sort is stable: users with the same lower-cased username keep the
      order they had in the store. */
  lemma SearchStable(users: seq<User>, searchTerm: string, y: User)
    requires !IsBlank(searchTerm)
    ensures var term := Lower(searchTerm);
      Keyed.WithKey(Search(users, searchTerm), SortName, SortName(y))
      == Keyed.WithKey(Keyed.WithKey(users, MatchesIn(term), true), SortName, SortName(y))
  {
    var term := Lower(searchTerm);
    var matches := Keyed.WithKey(users, MatchesIn(term), true);
    RankOrderIsTotal(term);
    Sorting.SortStable(matches, RankOrder(term), y);
    TiesAreSameName(matches, term, y);
    TiesAreSameName(Sorting.Sort(matches, RankOrder(term)), term, y);
  }

  // ---------------------------------------------------------------------
  // Search state

  /** The directory's state: the loaded users, the text in the search box,
      the users the effect last stored, and whether results are shown. */
  datatype Directory = Directory(users: seq<User>, searchTerm: string, filteredUsers: seq<User>, hasSearched: bool)

  const Initial: Directory := Directory([], "", [], false)

  /** The search effect, run whenever the term or the users change. */
  function Refilter(d: Directory): (r: Directory)
    ensures r.users == d.users && r.searchTerm == d.searchTerm
    ensures r.filteredUsers == Search(d.users, d.searchTerm)
    ensures !IsBlank(d.searchTerm) ==> r.hasSearched
    ensures d.searchTerm == "" ==> !r.hasSearched
    ensures IsBlank(d.searchTerm) && d.searchTerm != "" ==> r.hasSearched == d.hasSearched
  {
    if IsBlank(d.searchTerm) then
      d.(filteredUsers := d.users, hasSearched := if d.searchTerm == "" && d.hasSearched then false else d.hasSearched)
    else
      d.(filteredUsers := Search(d.users, d.searchTerm), hasSearched := true)
  }

  /** Typing `value` into the box: the change handler, then the effect. The
      box holds `value` and the stored list is its search result. */
  function ChangeSearch(d: Directory, value: string): (r: Directory)
    ensures r.users == d.users && r.searchTerm == value
    ensures r.filteredUsers == Search(d.users, value)
  {
    Refilter(d.(searchTerm := value, hasSearched := if !IsBlank(value) && !d.hasSearched then true else d.hasSearched))
  }

  /** The clear button: term emptied and results hidden, then the effect,
      which restores the full list. */
  function ClearSearch(d: Directory): (r: Directory)
    ensures r.users == d.users && r.searchTerm == "" && !r.hasSearched
    ensures r.filteredUsers == d.users
  {
    Refilter(d.(searchTerm := "", hasSearched := false))
  }

  /** The users arrive from the store: both lists set, then the effect,
      which re-applies the term already in the box to the new users. */
  function LoadUsers(d: Directory, users: seq<User>): (r: Directory)
    ensures r.users == users && r.searchTerm == d.searchTerm
    ensures r.filteredUsers == Search(users, d.searchTerm)
    ensures IsBlank(d.searchTerm) ==> r.filteredUsers == users
  {
    Refilter(d.(users := users, filteredUsers := users))
  }

  /** The result list is rendered when no status message is showing and a
      search has been made. */
  predicate ShowsResults(d: Directory, status: string) {
    status == "" && d.hasSearched
  }

  /** What every reachable state satisfies: the stored list is the search
      result for the current term, a non-blank term has been searched, and
      an empty box shows no results. */
  ghost predicate Consistent(d: Directory) {
    && d.filteredUsers == Search(d.users, d.searchTerm)
    && (!IsBlank(d.searchTerm) ==> d.hasSearched)
    && (d.searchTerm == "" ==> !d.hasSearched)
  }

  /** Every action leads to a consistent state, starting from the initial
      one. */
  lemma ActionsKeepConsistent(d: Directory, value: string, users: seq<User>)
    ensures Consistent(Initial)
    ensures Consistent(ChangeSearch(d, value))
    ensures Consistent(ClearSearch(d))
    ensures Consistent(LoadUsers(d, users))
  {
    assert Trim("") == "";
  }

  /** Running the effect again changes nothing. */
  lemma RefilterIdempotent(d: Directory)
    ensures Refilter(Refilter(d)) == Refilter(d)
  {
  }

  /** Clearing empties the box, hides the results and resets the list to
      every user. */
  lemma ClearSearchResets(d: Directory)
    ensures ClearSearch(d) == Directory(d.users, "", d.users, false)
  {
    assert IsBlank("");
  }

  /** A term with some non-space character shows its ranked matches. */
  lemma NonBlankSearchShows(d: Directory, value: string)
    requires !IsBlank(value)
    ensures ShowsResults(ChangeSearch(d, value), "")
    ensures ChangeSearch(d, value).filteredUsers == Search(d.users, value)
  {
  }

  /** A whitespace-only term neither starts nor stops the display of
      results; after a search it therefore lists every user. */
  lemma WhitespaceKeepsFlag(d: Directory, value: string)
    requires IsBlank(value) && value != ""
    ensures ChangeSearch(d, value).hasSearched == d.hasSearched
    ensures ChangeSearch(d, value).filteredUsers == d.users
  {
  }

  // ---------------------------------------------------------------------
  // Navigation

  predicate HasUsername(u: User) {
    u.username.Some? && u.username.value != ""
  }

  /** `getUserRouteParam`: the id when the username is missing or empty,
      otherwise the username through `encodeURIComponent`. The router
      decodes the parameter back to the username, and it never holds a
      `/`, so it stays one path segment. */
  function RouteParam(u: User): (p: string)
    ensures !HasUsername(u) ==> p == u.id
    ensures HasUsername(u) ==> UriComponent.Decode(p) == Some(u.username.value)
    ensures HasUsername(u) ==> '/' !in p
  {
    if !HasUsername(u) then u.id
    else
      UriComponent.DecodeEncode(u.username.value);
      UriComponent.EncodeIsSafe(u.username.value);
      UriComponent.Encode(u.username.value)
  }

  /** Users with different usernames get different route parameters. */
  lemma RouteParamInjective(a: User, b: User)
    requires HasUsername(a) && HasUsername(b)
    requires RouteParam(a) == RouteParam(b)
    ensures a.username == b.username
  {
  }

  /** The path `handleUserSelection` navigates to: no `/` after the leading
      one whenever the user has a username or a slash-free id. An id is not
      encoded, so an id holding `?` or `#` still ends the path there and
      starts a query or fragment. */
  function UserPath(u: User): (p: string)
    ensures |p| >= 1 && p[0] == '/'
    ensures HasUsername(u) || '/' !in u.id ==> '/' !in p[1..]
  {
    var p := "/" + RouteParam(u);
    assert p[1..] == RouteParam(u);
    p
  }
}

=== FILE: wrappers.dfy ===
/** An optional value, standing for a JavaScript field that may be `undefined`
    or `null`, and for a computation that may fail. */
module Wrappers {

  datatype Option<+T> = None | Some(value: T) {

    /** An absent value stops a `:-` chain: the whole expression is absent. */
    predicate IsFailure() {
      None?
    }

    /** The absence, passed on at another value type. */
    function PropagateFailure<U>(): Option<U>
      requires None?
    {
      None
    }

    /** The value a successful `:-` step binds. */
    function Extract(): T
      requires Some?
    {
      value
    }

    /** The value, or `default` when absent (JavaScript's `x || default`
        when every present value is truthy). */
    function GetOr(default: T): T {
      match this
      case Some(v) => v
      case None => default
    }
  }
}
